=== FILE: README.md ===
# AppInfermieri shift core in Dafny

AppInfermieri lets freelance nurses ("operators") take home-care shifts (a
"prestazione", a row of `service_requests`). This project models the part of
the backend and the mobile card that decides who may hold a shift and who is
told about it:

- the shift controller (`backend/src/controllers/shiftController.ts`):
  - the two lists of the home screen;
  - the lock / accept / refuse / complete transitions over the shift row and
    the caller's `user_request_status` row (the "view row");
- the minute cron (`backend/src/services/cron.ts`):
  - the sweep that releases locks older than ten minutes;
  - the notification pass over at most twenty open future shifts;
- targeting and dispatch (`backend/src/services/notificationLogic.ts`):
  - the day letter and time band of the availability token;
  - the coordinates a shift is placed at;
  - the candidate query, with and without the service opt-in join;
  - the two de-duplications of `sendPushToTargets` (push receipts, and view
    rows inserted with `ignoreDuplicates`);
- the login lockout after five wrong passwords, and the `user_devices` table of
  `backend/src/controllers/authController.ts`;
- the countdown and the buttons of `mobile/src/components/PrestazioneCard.tsx`.

The store is one immutable `Store.State`. It holds the shifts by id, the view
rows by (worker, shift) and the append-only `notifications` table. Every
controller call runs in one transaction that row-locks the shift. So each call
is one pure step from state to (reply, state), and `Lifecycle.Run` composes
worker calls, cron ticks and single sweep releases into arbitrary histories.

The things the core cannot see are inputs:

- the great-circle distance test is the predicate `near`;
- the calendar day and hour of a shift come from `localTime`;
- password hashing is the function `md5`;
- the clock is a `now` argument;
- the order in which the database returns rows is a `scan` sequence;
- whether the push transport and the bulk inserts succeed are booleans;
- the step of a tick that throws, if any, is `failAt`.

Modules: `Common`, `Store`, `Shifts`, `Targeting`, `Dispatch`, `Cron`,
`Lifecycle`, `Auth`, `Countdown`, `Card`.

Behaviours of the code a reader might not expect, all modelled as written
except the last one (see "## Findings"):

- `acceptShift` answers 400, not 409, when the caller does not hold the lock.
  It does not look at the lock's age: a stale lock not yet swept can still be
  accepted (`Shifts.Accept`).
- The sweep never resets the released holder's view row to "proposed". The
  guard of that update reads `user_assigned` after the same iteration set it
  to null (`Cron.ReleaseOne`). View rows stay as they were.
- One try/catch wraps the whole tick. A failure aborts the rest of the tick
  rather than only one shift (`Cron.Tick`).
- The notification query has no `ORDER BY`. The twenty shifts taken are any
  twenty the database returns first, not the twenty earliest.
- Lock, accept, refuse and complete only update an existing view row and never
  insert one.
- `refuseShift` marks the caller's view row refused even when the shift is
  assigned to the caller; the shift itself stays assigned.
- A completed shift keeps its holder and lock time (`Store.WellFormed`).
- `findTargetsForRequest` falls back to `latitude`/`longitude` when the
  request has no point, but the cron passes `toJSON()` of a `service_requests`
  row, which has neither column. On the cron's path a shift without a usable
  point reaches nobody (`Targeting.ShiftPlacedByPointOnly`).
- The sweep does not re-read a row before releasing it. Its query runs outside
  any transaction, and each iteration then saves the instance the query
  returned. An acceptance that commits in between is overwritten. The model's
  release re-checks that the row is still an expired lock (`Cron.ReleaseOne`);
  the write as performed is `Cron.StaleReleaseOne`. When nothing else writes
  in between, the two loops leave the same store (`Cron.QuietSweepIsAsWritten`).

## Model

| member | source | states |
|---|---|---|
| `Store.SetViewStatus` | backend/src/controllers/shiftController.ts:95-98 | A view-row update rewrites only the status of the caller's existing row, inserts no row, and leaves every other row as it was |
| `Shifts.Lock` | backend/src/controllers/shiftController.ts:61-108 | Unknown id gives 404 and no change. A free shift becomes locked by the caller at `now`, and the caller's view row becomes Viewing. A shift already locked by the caller gives success with no write. Any other status gives 409 and no change. Nothing else in the store changes |
| `Shifts.Accept` | backend/src/controllers/shiftController.ts:111-153 | Succeeds exactly when the caller holds the lock, whatever its age. The shift becomes assigned with holder and lock time kept, and the view row becomes Accepted. Otherwise 400 (404 for an unknown id) and nothing changes |
| `Shifts.Refuse` | backend/src/controllers/shiftController.ts:156-195 | Always succeeds on an existing shift. A lock held by the caller is released to free with no holder or lock time; any other shift is left alone. The caller's view row becomes Refused in every case |
| `Shifts.Complete` | backend/src/controllers/shiftController.ts:198-238 | Succeeds exactly when the shift is assigned to the caller. It then becomes done and the view row becomes Completed. Otherwise 400 or 404 and nothing changes |
| `Shifts.SortByDate` | backend/src/controllers/shiftController.ts:39-50 | The `ORDER BY date_time ASC`: every selected id appears exactly once, with dates non-decreasing |
| `Shifts.ListShifts` | backend/src/controllers/shiftController.ts:8-58 | "Available" holds exactly the shifts where the caller has a non-refused view row and the shift is free and not past, or locked by the caller. "Mine" holds exactly the caller's assigned, not past shifts. Both lists are duplicate-free and date-ordered, and they are disjoint |
| `Shifts.FirstClaimWins` | backend/src/controllers/shiftController.ts:75-92 | Of two workers locking the same free shift, the first holds it and the second gets 409 with no change |
| `Shifts.RelockKeepsLockTime` | backend/src/controllers/shiftController.ts:76-82 | A second lock by the holder succeeds without refreshing the lock time |
| `Targeting.RangeCode` | backend/src/services/notificationLogic.ts:13-17 | The band is one of "6", "14", "22": "6" exactly for hours 7..13, "14" exactly for 14..21, and "22" for every other hour, 6 included |
| `Targeting.Token` | backend/src/services/notificationLogic.ts:20-25 | The token is the day letter followed by the band code |
| `Targeting.DayLetterRoundTrip` | backend/src/services/notificationLogic.ts:7-9 | The day map is injective: each letter decodes back to its weekday |
| `Targeting.TokenDeterminesDayAndBand` | backend/src/services/notificationLogic.ts:20-25 | Two shift times give the same token if and only if they fall on the same weekday and in the same band |
| `Targeting.ShiftPlacedByPointOnly` | backend/src/services/notificationLogic.ts:30-38 | A request built from a shift row gets coordinates exactly when its point has two non-zero entries; the latitude/longitude fallback never applies to it |
| `Targeting.ServiceType` | backend/src/services/notificationLogic.ts:42 | The type is the joined service's type; only a request with a joined service can have the company type 8, so a missing service never skips the opt-in filter |
| `Targeting.Coordinates` | backend/src/services/notificationLogic.ts:27-38 | The point's coordinate array wins whenever present. Otherwise latitude/longitude are used. A shift whose chosen latitude or longitude is missing or zero gets no coordinates |
| `Targeting.OptInCountPositive` | backend/src/services/notificationLogic.ts:49-73 | The opt-in join yields a row for a worker exactly when one of its service rows is the shift's service with selected '1' |
| `Targeting.RowCount` | backend/src/services/notificationLogic.ts:45-73 | A worker yields some query row exactly when it is eligible. Eligible means role 0 or 4, registration 2, token in its days, in range, and, unless the service type is 8, opted into the service |
| `Targeting.Rows` | backend/src/services/notificationLogic.ts:78-88 | Every row the query returns is the (username, device) of an eligible worker of the directory |
| `Targeting.RowsMembers` | backend/src/services/notificationLogic.ts:46-87 | The query rows are exactly the (username, device) of the eligible workers in the directory |
| `Targeting.FindTargets` | backend/src/services/notificationLogic.ts:19-89 | A shift without coordinates has no candidates. Otherwise a row is a candidate exactly when it belongs to an eligible worker |
| `Dispatch.PushTargets` | backend/src/services/notificationLogic.ts:99-105 | A candidate is pushed exactly when its device has the Expo prefix and it has no receipt yet for the shift. The list is empty exactly when no candidate qualifies |
| `Dispatch.ViewTargets` | backend/src/services/notificationLogic.ts:102-106 | A candidate gets a view row exactly when it has no view row of any status for the shift |
| `Dispatch.ReceiptsFor` | backend/src/services/notificationLogic.ts:127-138 | One sent receipt per pushed candidate, in order, with the fixed title and the given message |
| `Dispatch.InsertViews` | backend/src/services/notificationLogic.ts:149-161 | The insert with `ignoreDuplicates` adds a Proposed row for every candidate key not yet present and keeps every existing row unchanged |
| `Dispatch.SendPush` | backend/src/services/notificationLogic.ts:91-167 | Shifts are never touched. Receipts are appended for the push targets only when the transport call succeeded. View rows are added for the candidates only when the insert succeeded. An existing view row is never changed |
| `Dispatch.SendPushRecords` | backend/src/services/notificationLogic.ts:99-161 | After a dispatch, every candidate has a view row for the shift if the insert went through, and a receipt for it if the push went through and it has an Expo token, whether new or already there |
| `Dispatch.SendPushOnlyCandidates` | backend/src/services/notificationLogic.ts:99-161 | A dispatch writes for its own candidates and no one else: every new view row and every new receipt is for the shift and one of its candidates |
| `Dispatch.RefusalSurvivesDispatch` | backend/src/services/notificationLogic.ts:102-106 | A refused view row stays refused through any dispatch |
| `Dispatch.RepeatDispatchIsNoop` | backend/src/services/notificationLogic.ts:99-106 | After a dispatch whose push and insert both succeeded, the same candidates give no push and no insert, and a second dispatch changes nothing |
| `Cron.ReleaseOne` | backend/src/services/cron.ts:30-46 | A release frees a shift that is still an expired lock, clearing its holder and lock time, and leaves any other shift alone. The view-row reset it guards on the just-cleared holder never happens, so view rows are unchanged |
| `Cron.StaleReleaseOne` | backend/src/services/cron.ts:30-35 | The loop's write as performed: the shift is set free with no holder or lock time whatever its current status, and view rows are unchanged |
| `Cron.StaleAll` | backend/src/services/cron.ts:30-47 | The loop as performed: every listed shift is set free with no holder or lock time, and every other shift and every view row is left alone |
| `Cron.QuietSweepIsAsWritten` | backend/src/services/cron.ts:17-47 | Over the rows the sweep query returned, with no write in between, the guarded loop and the loop as performed leave the same store |
| `Cron.ReleaseAll` | backend/src/services/cron.ts:30-47 | The release loop frees exactly the listed shifts that are expired locks, and leaves every other shift and every view row alone |
| `Cron.ExpiredIn` | backend/src/services/cron.ts:17-25 | The sweep query returns exactly the scanned shifts that are locked with a lock time more than ten minutes old |
| `Cron.Sweep` | backend/src/services/cron.ts:17-47 | The sweep as a whole: every expired lock is released, every other shift and every view row is unchanged |
| `Cron.ReleaseLoopIsSweep` | backend/src/services/cron.ts:17-47 | The query followed by the release loop equals the whole-table sweep when the scan lists every row |
| `Cron.SweepIdempotent` | backend/src/services/cron.ts:17-47 | After a sweep no expired lock is left, and a second sweep at the same time changes nothing |
| `Cron.SweepSparesLiveShifts` | backend/src/services/cron.ts:17-25 | A lock at most ten minutes old, and any free, assigned or done shift, survives the sweep unchanged |
| `Cron.Batch` | backend/src/services/cron.ts:53-60 | At most twenty distinct free future shifts, all from the scan. If fewer than twenty are taken, every free future shift of the scan is among them |
| `Cron.Label` | backend/src/services/cron.ts:67 | The message is the service description when it is present and non-empty, and "Nuova prestazione" otherwise |
| `Cron.NotifyOne` | backend/src/services/cron.ts:62-73 | A shift without candidates is not dispatched and nothing is written. Otherwise exactly one dispatch is made with the shift's label and its candidates, and the store is what `sendPushToTargets` leaves with that shift's push and insert outcomes. Afterwards each candidate has a view row for the shift if the insert went through, and a receipt if the push went through and it has an Expo token. Shifts never change and existing view rows and receipts are kept |
| `Cron.NotifyAll` | backend/src/services/cron.ts:62-74 | Every dispatch of the loop is for a shift of the loop, with that shift's label and non-empty candidate list. Shifts, existing view rows and receipts are kept. What the loop writes is stated from both sides: at least the records of `Cron.NotifyAllRecords`, and nothing beyond its own calls' candidates (`Cron.NotifyAllViewsOnlyCandidates`, `Cron.NotifyAllReceiptsOnlyCandidates`) |
| `Cron.NotifyAllRecords` | backend/src/services/cron.ts:62-74 | After the loop, every candidate of every shift of the loop has a view row for that shift if its insert went through, and a receipt if its push went through and the candidate has an Expo token |
| `Cron.NotifyOneOnlyCandidates` | backend/src/services/cron.ts:62-73 | One shift's dispatch adds view rows and receipts only for candidates named in the call it makes |
| `Cron.NotifyAllViewsOnlyCandidates` | backend/src/services/cron.ts:62-74 | Every view row the loop adds is for the shift of one of its calls and a candidate of that call |
| `Cron.NotifyAllReceiptsOnlyCandidates` | backend/src/services/cron.ts:62-74 | Every receipt the loop appends is for the shift of one of its calls and a candidate of that call |
| `Cron.NotifyCoversCandidates` | backend/src/services/cron.ts:62-74 | Every shift of the loop with candidates is dispatched |
| `Cron.NotifyPrefix` | backend/src/services/cron.ts:62-74 | A loop cut short makes a prefix of the dispatches of the full loop |
| `Cron.Tick` | backend/src/services/cron.ts:11-79 | A tick only releases expired locks, never removes a receipt or a view row, and makes at most twenty dispatches, each for a scanned shift that is free after the sweep and in the future. It completes exactly when no step throws before the end. A throw during the releases leaves only the releases before it and makes no dispatch. A throw at notification step k makes at most k dispatches. What the tick writes is stated from both sides: a completed tick writes at least the records of `Cron.TickRecordsDispatch`, and any tick writes only for the candidates of its own dispatches (`Cron.TickWritesOnlyForCalls`) |
| `Cron.TickAbortIsPrefix` | backend/src/services/cron.ts:12-78 | A tick that throws has made a prefix of the dispatches of the same tick without the failure |
| `Cron.TickReleasesLikeSweep` | backend/src/services/cron.ts:17-47 | A tick without failure, over a scan listing every row, leaves the shifts exactly as the sweep does |
| `Cron.ReleasedShiftIsRequeued` | backend/src/services/cron.ts:30-60 | A future shift whose lock expired in this tick is in the same tick's batch unless the batch is full |
| `Cron.TickRecordsDispatch` | backend/src/services/cron.ts:53-74 | In a tick without failure, every candidate of every batch shift ends the tick with a view row for the shift if its insert went through, and a receipt if its push went through and the candidate has an Expo token |
| `Cron.TickCallsAreTargeted` | backend/src/services/cron.ts:53-74 | Whether or not the tick fails, each of its dispatches is for a shift with candidates and carries that shift's label and the candidates the targeting computed for it after the sweep |
| `Cron.TickWritesOnlyForCalls` | backend/src/services/cron.ts:11-79 | Whether or not the tick fails, every view row and receipt it adds is for the shift of one of its dispatches and a candidate of that dispatch, so no one else is offered the shift |
| `Cron.TickDispatchesEveryCandidateShift` | backend/src/services/cron.ts:53-74 | In a tick without failure, every batch shift with candidates gets a dispatch carrying its label and exactly the candidates the targeting computed for it after the sweep |
| `Lifecycle.StepTransitions` | backend/src/controllers/shiftController.ts:89-221 | No call, tick or single release adds or removes a shift. Statuses move only 1 to 3, 3 to 2, 3 to 1 or 2 to 5 |
| `Lifecycle.StepPreservesInvariant` | backend/src/controllers/shiftController.ts:89-221 | Every call, tick and single release keeps each shift well formed: free shifts have no holder or lock time, and the others have both |
| `Lifecycle.RunPreservesInvariant` | backend/src/controllers/shiftController.ts:89-221 | Well-formedness holds after any history of calls, ticks and releases |
| `Lifecycle.NoDirectHandover` | backend/src/controllers/shiftController.ts:76-86 | A held shift never passes from one holder straight to another |
| `Lifecycle.OthersCannotTouchHeldShift` | backend/src/controllers/shiftController.ts:126-214 | Calls by any worker other than the holder leave a locked or assigned shift unchanged |
| `Lifecycle.DoneIsFinal` | backend/src/controllers/shiftController.ts:214-221 | A done shift is never changed again by any history |
| `Lifecycle.RefusalPersists` | backend/src/controllers/shiftController.ts:180-185 | A refusal stays through every history in which the refusing worker does not act on that shift again |
| `Lifecycle.StaleReleaseRevertsAcceptance` | backend/src/services/cron.ts:17-35 | A lock the sweep's query selected, then accepted by its holder, is set free by the loop's write as performed: a move from 2 to 1 that drops the holder while the view row says accepted. The guarded release leaves it assigned |
| `Lifecycle.AcceptedShiftSurvivesRelease` | backend/src/controllers/shiftController.ts:126-141 | A shift just accepted is unchanged by any later release step, whenever the sweep's query ran |
| `Auth.FindLogin` | backend/src/controllers/authController.ts:20 | The lookup finds the first account with that username and role 0, or reports that none exists |
| `Auth.RemoveToken` | backend/src/controllers/authController.ts:55 | Exactly the rows holding the token are removed, and a table with one row per token keeps that property |
| `Auth.RemoveOwned` | backend/src/controllers/authController.ts:150-157 | Exactly the caller's rows for that token are removed |
| `Auth.RegisterDevice` | backend/src/controllers/authController.ts:53-67 | After login the token is registered exactly once, to the caller. Rows for other tokens are kept, and no row for another token is added |
| `Auth.Login` | backend/src/controllers/authController.ts:11-94 | Missing credentials give 400; an unknown or non-operator user gives 401; a blocked account gives 403; all three change nothing. A wrong password adds one failure and gives 401, or blocks the account with 403 at the fifth. A right password resets the counter, and registers an Expo token to the caller only |
| `Auth.UpdateDeviceToken` | backend/src/controllers/authController.ts:97-142 | A missing token gives 400 and no change. Otherwise the first row holding the token moves to the caller, seen now, with its platform replaced only when one is given; with no such row a new one is appended. Every other row is untouched. The caller's account, if found, records the token and the other accounts are unchanged |
| `Auth.TokensStayUnique` | backend/src/controllers/authController.ts:53-161 | If no token is held by two rows, login, update and logout keep it so, and an update leaves the token with exactly one row, owned by the caller |
| `Auth.Logout` | backend/src/controllers/authController.ts:145-168 | Always 200. With a token, exactly the caller's rows for it disappear. Without one, nothing changes |
| `Auth.WrongPasswordsCount` | backend/src/controllers/authController.ts:34-45 | From a clean account, n < 5 wrong passwords leave the counter at n, the account unblocked and the devices untouched. The first four are answered 401 |
| `Auth.FifthFailureBlocks` | backend/src/controllers/authController.ts:34-41 | The fifth consecutive wrong password from a clean account blocks it and is answered 403 |
| `Countdown.DecimalString` | mobile/src/components/PrestazioneCard.tsx:50 | The decimal string of a number is all digits, ends with its last digit, and has one character below 10 and two from 10 to 99 |
| `Countdown.PadStart2` | mobile/src/components/PrestazioneCard.tsx:50 | A string shorter than two is left-padded with '0' to exactly two characters and ends with the original; a longer one is unchanged |
| `Countdown.Pad2RoundTrip` | mobile/src/components/PrestazioneCard.tsx:50 | A number under 100, converted and padded to two characters, is two digits that read back as the number |
| `Countdown.TimeLeft` | mobile/src/components/PrestazioneCard.tsx:35-52 | The countdown always has the MM:SS shape and reads 00:00 once the ten-minute lock has run out |
| `Countdown.TimeLeftReadsBack` | mobile/src/components/PrestazioneCard.tsx:40-50 | While the lock runs, minutes and seconds are both below 60 and show the time left within the hour rounded down to the second; under an hour that is the whole time left |
| `Card.Actions` | mobile/src/components/PrestazioneCard.tsx:150-195 | The lock button shows exactly for a free shift, refuse and accept exactly for a locked one, complete exactly for an assigned one, and nothing for a done shift |
| `Card.FlagsExclusive` | mobile/src/components/PrestazioneCard.tsx:28-30 | At most one of the free/locked/assigned flags holds, so a card shows one group of buttons |
| `Card.TimerBadge` | mobile/src/components/PrestazioneCard.tsx:19-94 | The badge shows exactly for a locked shift. It reads "--:--" until a lock time is known, and the countdown after that |
| `Card.ListedActionsSucceed` | mobile/src/components/PrestazioneCard.tsx:150-195 | Every button a card shows for a shift in the caller's lists leads to a call the server accepts |
| `Card.SweepWaitsForZero` | mobile/src/components/PrestazioneCard.tsx:41 | The card's expiry is lock time plus the server's ten minutes: once the sweep may release a lock, the card already reads "00:00" |

## Findings

| source | as written | input that shows it | evidently intended | confidence | as-written member | corrected member |
|---|---|---|---|---|---|---|
| backend/src/services/cron.ts:17-35 | The sweep queries expired locks outside any transaction, then saves each fetched instance with status 1 and no holder or lock time, without re-reading the row | Shift 7 is (3, "A", lock time 0) at now = 20 minutes. The query selects it. "A" accepts it (status 2, the lock age is not checked). The loop then writes (1, null, null): a 2 to 1 move, and A's view row still says accepted | Release a row only while it is still an expired lock (re-read under a row lock, or a conditional update) | medium; not executed | `Lifecycle.StaleReleaseRevertsAcceptance` (on `Cron.StaleReleaseOne`) | `Cron.ReleaseOne` (with `Lifecycle.AcceptedShiftSurvivesRelease` and `Lifecycle.StepTransitions`) |

## Left out

- Transactions, row locks and concurrency are not modelled as such. Each controller call is one atomic step, and interleavings are sequences of steps (`Lifecycle.Run`).
- A cron tick (`TickStep`) is one atomic step with respect to controller calls. Only single iterations of the release loop (`ReleaseStep`) are interleaved with calls, using the guarded release. The lifecycle lemmas rely on both, so they say nothing about the unguarded write of the code (see "## Findings"). Calls interleaved with the notification pass, and two overlapping ticks, are not modelled.
- The great-circle distance formula and each worker's `distance` column are left out. The SQL `acos` expression involves floating-point trigonometry, so it is the predicate `near`.
- The time zone conversion of `getDay()`/`getHours()` is left out; the weekday and hour come from `localTime`.
- Password hashing is the parameter `md5`. JWT signing, the `authenticateToken` middleware and the response bodies are not modelled.
- The Expo HTTP call and its headers are left out. Its success, together with the receipt insert, is the flag `pushOk`.
- The view-row insert's outcome is the flag `viewsOk`. A partial bulk insert is not modelled.
- `Targeting.BaseEligible`: the SQL `LIKE` on `days` is modelled as a case-sensitive substring test. MySQL collations usually compare without case.
- `Auth.FindLogin`: usernames, and device tokens in `Auth.FindToken`, `Auth.RemoveToken` and `Auth.RemoveOwned`, are compared exactly. The lookups run in SQL `where` clauses, and a case-insensitive column collation (MySQL's default) would also match "Mario" to "mario". The collation is a database setting, outside the code.
- `Targeting.Coordinates`: a NaN coordinate is not modelled (coordinates are mathematical reals).
- Auto-increment ids, the `last_seen` and `sent_date` timestamps beyond equality with `now`, and the `data`/`notification_type` columns of receipts are not modelled.
- The refusal reason table (`ServiceRequestRefuse`) is left out, because the refuse endpoint does not write it.
- The profile controller, routes, models' column declarations, `index.ts` and every screen other than the shift card's timer and buttons are left out.
- `Card.TimerBadge`: React's state across renders (the interval re-running `calculateTimeLeft` each second) is not modelled. The badge is a function of the status, the lock time and `now`.
- Server 500 replies caught by the controllers' outer `catch` are not modelled. In the cron, a throw at a given step is the parameter `failAt`.

=== FILE: auth.dfy ===
/** Login with a failed-attempt lockout, and the `user_devices` table that
    records where each worker's push notifications go. Password hashing is
    the parameter `md5`; JWT issuance is not modelled. */
module Auth {
  import opened Common

  /** Failed attempts that block an account. */
  const MAX_FAILURES: int := 5

  /** Platform recorded when the client sends none. */
  const UNKNOWN_PLATFORM: string := "unknown"

  /** A `users` row, reduced to the columns login reads and writes. */
  datatype Account = Account(
    id: int,
    username: string,
    password: string,
    pharmacist: int,
    loginCounter: int,
    accountBlocked: int,
    device: Option<string>)

  /** A `user_devices` row. */
  datatype DeviceRow = DeviceRow(userId: int, token: string, platform: string, lastSeen: Time)

  datatype AuthState = AuthState(users: seq<Account>, devices: seq<DeviceRow>)

  /** Replies: 200, 400, 401, 403. */
  datatype Reply = Ok | BadRequest | Unauthorized | Forbidden

  datatype LoginRequest = LoginRequest(
    username: Option<string>,
    password: Option<string>,
    pushToken: Option<string>,
    platform: Option<string>)

  /** `findOne({where: {username, pharmacist: 0}})`: only operator accounts
      may log in; the first matching row is used. */
  predicate LoginMatch(a: Account, name: string) {
    a.username == name && a.pharmacist == 0
  }

  function FindLogin(users: seq<Account>, name: string): (r: Option<nat>)
    ensures r.Some? ==> r.value < |users| && LoginMatch(users[r.value], name)
    ensures r.Some? ==> forall k :: 0 <= k < r.value ==> !LoginMatch(users[k], name)
    ensures r.None? ==> forall k :: 0 <= k < |users| ==> !LoginMatch(users[k], name)
  {
    FirstIndex(users, a => LoginMatch(a, name))
  }

  /** `findByPk(id)`. */
  function FindById(users: seq<Account>, id: int): Option<nat> {
    FirstIndex(users, (a: Account) => a.id == id)
  }

  /** `findOne({where: {device_token}})`: the first row with that token. */
  function FindToken(devices: seq<DeviceRow>, token: string): Option<nat> {
    FirstIndex(devices, (d: DeviceRow) => d.token == token)
  }

  /** `platform || 'unknown'`. */
  function PlatformOr(platform: Option<string>): string {
    if Present(platform) then platform.value else UNKNOWN_PLATFORM
  }

  /** No two rows of the device table hold the same token. */
  predicate UniqueTokens(devices: seq<DeviceRow>) {
    forall j, k :: 0 <= j < k < |devices| ==> devices[j].token != devices[k].token
  }

  /** `UserDevice.destroy({where: {device_token}})`. */
  function RemoveToken(devices: seq<DeviceRow>, token: string): (r: seq<DeviceRow>)
    ensures forall d :: d in r <==> d in devices && d.token != token
    ensures UniqueTokens(devices) ==> UniqueTokens(r)
  {
    if |devices| == 0 then []
    else
      var rest := RemoveToken(devices[1..], token);
      assert UniqueTokens(devices) ==> UniqueTokens(devices[1..]);
      assert forall k :: 0 <= k < |rest| ==> rest[k] in rest && rest[k] in devices[1..];
      assert UniqueTokens(devices) ==> forall d :: d in devices[1..] ==> d.token != devices[0].token;
      (if devices[0].token == token then [] else [devices[0]]) + rest
  }

  /** `UserDevice.destroy({where: {user_id, device_token}})`. */
  function RemoveOwned(devices: seq<DeviceRow>, userId: int, token: string): (r: seq<DeviceRow>)
    ensures forall d :: d in r <==> d in devices && !(d.userId == userId && d.token == token)
    ensures |r| <= |devices|
    ensures UniqueTokens(devices) ==> UniqueTokens(r)
  {
    if |devices| == 0 then []
    else
      var rest := RemoveOwned(devices[1..], userId, token);
      assert UniqueTokens(devices) ==> UniqueTokens(devices[1..]);
      assert forall k :: 0 <= k < |rest| ==> rest[k] in rest && rest[k] in devices[1..];
      assert UniqueTokens(devices) ==> forall d :: d in devices[1..] ==> d.token != devices[0].token;
      (if devices[0].userId == userId && devices[0].token == token then [] else [devices[0]]) + rest
  }

  /** The token is registered to exactly one row, owned by `userId`. */
  predicate OwnsToken(devices: seq<DeviceRow>, userId: int, token: string) {
    && (exists k :: 0 <= k < |devices| && devices[k].token == token && devices[k].userId == userId)
    && (forall j, k :: 0 <= j < k < |devices| ==> devices[j].token != token || devices[k].token != token)
  }

  /** Login's device handling: drop every row with the token, then add the
      caller's row. */
  function RegisterDevice(devices: seq<DeviceRow>, userId: int, token: string, platform: Option<string>, now: Time): (r: seq<DeviceRow>)
    ensures OwnsToken(r, userId, token)
    ensures forall d :: d in devices && d.token != token ==> d in r
    ensures forall d :: d in r && d.token != token ==> d in devices
    ensures UniqueTokens(devices) ==> UniqueTokens(r)
  {
    var kept := RemoveToken(devices, token);
    var r := kept + [DeviceRow(userId, token, PlatformOr(platform), now)];
    assert r[|kept|].token == token;
    assert forall k :: 0 <= k < |kept| ==> r[k] == kept[k] && kept[k] in kept;
    r
  }

  /** Only the row at `i` may differ, and the rows keep their identity
      (id, username, role, stored hash). */
  predicate OnlyAccountChanged(before: seq<Account>, after: seq<Account>, i: nat) {
    && |after| == |before|
    && (forall k :: 0 <= k < |before| && k != i ==> after[k] == before[k])
    && (i < |before| ==>
          after[i].id == before[i].id && after[i].username == before[i].username
          && after[i].pharmacist == before[i].pharmacist && after[i].password == before[i].password)
  }

  /** `login`. */
  function Login(st: AuthState, req: LoginRequest, md5: string -> string, now: Time): (r: (Reply, AuthState))
    ensures !Present(req.username) || !Present(req.password) ==> r == (BadRequest, st)
    ensures |r.1.users| == |st.users|
    ensures Present(req.username) && Present(req.password) ==>
      match FindLogin(st.users, req.username.value)
      case None => r == (Unauthorized, st)
      case Some(i) =>
        var u := st.users[i];
        var u' := r.1.users[i];
        && OnlyAccountChanged(st.users, r.1.users, i)
        && (u.accountBlocked == 1 ==> r == (Forbidden, st))
        && (u.accountBlocked != 1 && md5(req.password.value) != u.password ==>
              && r.1.devices == st.devices
              && u'.loginCounter == u.loginCounter + 1
              && u'.device == u.device
              && (u'.loginCounter >= MAX_FAILURES ==> r.0 == Forbidden && u'.accountBlocked == 1)
              && (u'.loginCounter < MAX_FAILURES ==> r.0 == Unauthorized && u'.accountBlocked == u.accountBlocked))
        && (u.accountBlocked != 1 && md5(req.password.value) == u.password ==>
              && r.0 == Ok
              && u'.accountBlocked == u.accountBlocked
              && u'.loginCounter <= 0
              && (u.loginCounter >= 0 ==> u'.loginCounter == 0)
              && (Present(req.pushToken) && StartsWith(req.pushToken.value, EXPO_TOKEN_PREFIX) ==>
                    && u'.device == req.pushToken
                    && OwnsToken(r.1.devices, u.id, req.pushToken.value)
                    && (forall d :: d in st.devices && d.token != req.pushToken.value ==> d in r.1.devices)
                    && (forall d :: d in r.1.devices && d.token != req.pushToken.value ==> d in st.devices))
              && (!(Present(req.pushToken) && StartsWith(req.pushToken.value, EXPO_TOKEN_PREFIX)) ==>
                    r.1.devices == st.devices && u'.device == u.device))
  {
    if !Present(req.username) || !Present(req.password) then (BadRequest, st)
    else match FindLogin(st.users, req.username.value)
      case None => (Unauthorized, st)
      case Some(i) =>
        var u := st.users[i];
        if u.accountBlocked == 1 then (Forbidden, st)
        else if md5(req.password.value) != u.password then
          var counted := u.(loginCounter := u.loginCounter + 1);
          if counted.loginCounter >= MAX_FAILURES then
            (Forbidden, st.(users := st.users[i := counted.(accountBlocked := 1)]))
          else
            (Unauthorized, st.(users := st.users[i := counted]))
        else
          var reset := if u.loginCounter > 0 then u.(loginCounter := 0) else u;
          if Present(req.pushToken) && StartsWith(req.pushToken.value, EXPO_TOKEN_PREFIX) then
            var token := req.pushToken.value;
            (Ok, AuthState(st.users[i := reset.(device := req.pushToken)], RegisterDevice(st.devices, u.id, token, req.platform, now)))
          else
            (Ok, st.(users := st.users[i := reset]))
  }

  /** `updateDeviceToken`: without a token, 400 and nothing changes.
      Otherwise the first row holding the token moves to the caller (seen
      now, its platform replaced only when one is given), or a new row is
      added; every other row stays as it was, and the caller's account, if
      it exists, remembers the token. */
  function UpdateDeviceToken(st: AuthState, userId: int, device: Option<string>, platform: Option<string>, now: Time): (r: (Reply, AuthState))
    ensures !Present(device) ==> r == (BadRequest, st)
    ensures |st.devices| <= |r.1.devices|
    ensures Present(device) ==>
      var token := device.value;
      && r.0 == Ok
      && (exists k :: 0 <= k < |r.1.devices| && r.1.devices[k].token == token && r.1.devices[k].userId == userId)
      && (forall k :: 0 <= k < |st.devices| && st.devices[k].token != token ==> r.1.devices[k] == st.devices[k])
      && (match FindToken(st.devices, token)
          case Some(k) =>
            r.1.devices == st.devices[k := st.devices[k].(
              userId := userId,
              lastSeen := now,
              platform := if Present(platform) then platform.value else st.devices[k].platform)]
          case None =>
            r.1.devices == st.devices + [DeviceRow(userId, token, PlatformOr(platform), now)])
      && (match FindById(st.users, userId)
          case Some(j) => r.1.users == st.users[j := st.users[j].(device := device)]
          case None => r.1.users == st.users)
  {
    if !Present(device) then (BadRequest, st)
    else
      var token := device.value;
      var (devices, at) := match FindToken(st.devices, token)
        case Some(k) =>
          var row := st.devices[k];
          var platform' := if Present(platform) then platform.value else row.platform;
          (st.devices[k := row.(userId := userId, lastSeen := now, platform := platform')], k)
        case None =>
          (st.devices + [DeviceRow(userId, token, PlatformOr(platform), now)], |st.devices|);
      assert devices[at].token == token && devices[at].userId == userId;
      var users := match FindById(st.users, userId)
        case Some(j) => st.users[j := st.users[j].(device := device)]
        case None => st.users;
      (Ok, AuthState(users, devices))
  }

  /** `logout`: removes only the caller's row for the given token, and
      nothing when no token is given; it always answers 200. */
  function Logout(st: AuthState, userId: int, device: Option<string>): (r: (Reply, AuthState))
    ensures r.0 == Ok && r.1.users == st.users
    ensures !Present(device) ==> r.1 == st
    ensures Present(device) ==>
      forall d :: d in r.1.devices <==> d in st.devices && !(d.userId == userId && d.token == device.value)
  {
    if Present(device) then (Ok, st.(devices := RemoveOwned(st.devices, userId, device.value))) else (Ok, st)
  }

  /** Each token is held by at most one row, and every operation on the
      device table keeps it so: login and update leave exactly one row for
      the token, owned by the caller; logout only removes rows. */
  lemma TokensStayUnique(st: AuthState, req: LoginRequest, md5: string -> string, now: Time,
                                            userId: int, device: Option<string>, platform: Option<string>)
    requires UniqueTokens(st.devices)
    ensures UniqueTokens(Login(st, req, md5, now).1.devices)
    ensures UniqueTokens(UpdateDeviceToken(st, userId, device, platform, now).1.devices)
    ensures Present(device) ==> OwnsToken(UpdateDeviceToken(st, userId, device, platform, now).1.devices, userId, device.value)
    ensures UniqueTokens(Logout(st, userId, device).1.devices)
  {
    if Present(device) {
      var token := device.value;
      var after := UpdateDeviceToken(st, userId, device, platform, now).1.devices;
      match FindToken(st.devices, token)
      case Some(k) =>
        assert forall j :: 0 <= j < |after| ==> after[j].token == st.devices[j].token;
      case None =>
        assert forall j :: 0 <= j < |st.devices| ==> after[j] == st.devices[j] && after[j].token != token;
    }
  }

  // ---------------------------------------------------------------------
  // Lockout
  // ---------------------------------------------------------------------

  /** The state after `n` identical login calls. */
  function Repeat(st: AuthState, req: LoginRequest, md5: string -> string, now: Time, n: nat): AuthState
    decreases n
  {
    if n == 0 then st else Login(Repeat(st, req, md5, now, n - 1), req, md5, now).1
  }

  /** Rows keep their identity, so the login lookup keeps finding the same row. */
  lemma FindLoginStable(before: seq<Account>, after: seq<Account>, i: nat, name: string)
    requires OnlyAccountChanged(before, after, i)
    ensures FindLogin(after, name) == FindLogin(before, name)
  {
    var a := FindLogin(after, name);
    var b := FindLogin(before, name);
    if i < |before| {
      assert forall k :: 0 <= k < |before| ==> (LoginMatch(after[k], name) <==> LoginMatch(before[k], name));
    }
  }

  /** From a clean, unblocked account, each wrong password adds one to the
      counter; the first four are answered 401 and leave it unblocked. */
  lemma {:induction false} WrongPasswordsCount(st: AuthState, req: LoginRequest, md5: string -> string, now: Time, i: nat, n: nat)
    requires Present(req.username) && Present(req.password)
    requires FindLogin(st.users, req.username.value) == Some(i)
    requires st.users[i].loginCounter == 0 && st.users[i].accountBlocked != 1
    requires md5(req.password.value) != st.users[i].password
    requires n < MAX_FAILURES
    ensures var after := Repeat(st, req, md5, now, n);
      && FindLogin(after.users, req.username.value) == Some(i)
      && after.users[i].loginCounter == n
      && after.users[i].accountBlocked == st.users[i].accountBlocked
      && after.users[i].password == st.users[i].password
      && after.devices == st.devices
      && (n + 1 < MAX_FAILURES ==> Login(after, req, md5, now).0 == Unauthorized)
    decreases n
  {
    if n > 0 {
      WrongPasswordsCount(st, req, md5, now, i, n - 1);
      var prev := Repeat(st, req, md5, now, n - 1);
      var after := Repeat(st, req, md5, now, n);
      assert after == Login(prev, req, md5, now).1;
      FindLoginStable(prev.users, after.users, i, req.username.value);
    }
  }

  /** The fifth consecutive wrong password from a clean account blocks it
      and is answered 403. */
  lemma FifthFailureBlocks(st: AuthState, req: LoginRequest, md5: string -> string, now: Time, i: nat)
    requires Present(req.username) && Present(req.password)
    requires FindLogin(st.users, req.username.value) == Some(i)
    requires st.users[i].loginCounter == 0 && st.users[i].accountBlocked != 1
    requires md5(req.password.value) != st.users[i].password
    ensures var fifth := Login(Repeat(st, req, md5, now, 4), req, md5, now);
      fifth.0 == Forbidden && fifth.1.users[i].accountBlocked == 1
  {
    WrongPasswordsCount(st, req, md5, now, i, 4);
  }
}

=== FILE: card.dfy ===
/** The shift card of the mobile app: which buttons it shows for a status,
    and what its timer badge reads. */
module Card {
  import opened Common
  import opened Store
  import opened Shifts
  import opened Countdown
  import Cron

  /** The buttons: "VISUALIZZA DETTAGLI" (lock), "Rifiuta", "Accetta",
      "Segnala Eseguita". */
  datatype Action = ViewDetails | RefuseAction | AcceptAction | CompleteAction

  predicate IsFree(status: int) { status == FREE }
  predicate IsLocked(status: int) { status == LOCKED }
  predicate IsAssigned(status: int) { status == ASSIGNED }

  /** The footer: lock for a free shift, refuse and accept for a locked one,
      complete for an assigned one, nothing otherwise. */
  function Actions(status: int): (r: set<Action>)
    ensures ViewDetails in r <==> IsFree(status)
    ensures (RefuseAction in r <==> IsLocked(status)) && (AcceptAction in r <==> IsLocked(status))
    ensures CompleteAction in r <==> IsAssigned(status)
    ensures status == DONE ==> r == {}
  {
    (if IsFree(status) then {ViewDetails} else {})
    + (if IsLocked(status) then {RefuseAction, AcceptAction} else {})
    + (if IsAssigned(status) then {CompleteAction} else {})
  }

  /** The three flags never hold together, so a card shows one group of
      buttons at most. */
  lemma FlagsExclusive(status: int)
    ensures !(IsFree(status) && IsLocked(status))
    ensures !(IsFree(status) && IsAssigned(status))
    ensures !(IsLocked(status) && IsAssigned(status))
    ensures |Actions(status)| <= 2
  {
  }

  /** The timer badge: hidden unless the shift is locked; "--:--" until a
      lock time is known; otherwise the countdown. */
  function TimerBadge(status: int, blockedTime: Option<Time>, now: Time): (r: Option<string>)
    ensures r.Some? <==> IsLocked(status)
    ensures IsLocked(status) && blockedTime.None? ==> r == Some("--:--")
    ensures IsLocked(status) && blockedTime.Some? ==> r.value == TimeLeft(blockedTime.value, now) && IsClock(r.value)
  {
    if !IsLocked(status) then None
    else if blockedTime.None? then Some("--:--")
    else Some(TimeLeft(blockedTime.value, now))
  }

  /** The card and the server agree: for a shift in one of the caller's two
      lists, every button the card shows leads to a call the server accepts. */
  lemma ListedActionsSucceed(s: State, user: UserName, now: Time, id: ShiftId, t: Time)
    requires id in s.shifts
    requires Available(s, user, now, id) || Mine(s.shifts[id], user, now)
    ensures ViewDetails in Actions(s.shifts[id].status) ==> Lock(s, id, user, t).0 == Ok
    ensures AcceptAction in Actions(s.shifts[id].status) ==> Accept(s, id, user).0 == Ok
    ensures RefuseAction in Actions(s.shifts[id].status) ==> Refuse(s, id, user).0 == Ok
    ensures CompleteAction in Actions(s.shifts[id].status) ==> Complete(s, id, user).0 == Ok
  {
  }

  /** The card's expiry is the server's: by the time the sweep may release a
      lock, the card of that shift already reads "00:00". */
  lemma SweepWaitsForZero(sh: Shift, now: Time)
    requires Cron.Expired(sh, now)
    ensures TimerBadge(sh.status, sh.blockedTime, now) == Some("00:00")
    ensures Expiry(sh.blockedTime.value) < now
  {
  }
}

=== FILE: common.dfy ===
/** Shared vocabulary: optional values, clock values and the string tests the
    backend and the mobile client rely on. */
module Common {

  /** A nullable column or an absent request field. */
  datatype Option<+T> = None | Some(value: T)

  /** Milliseconds since the epoch, as `Date.getTime()` reports them. */
  type Time = int

  /** Workers are identified by their `username` in every shift table. */
  type UserName = string

  /** `service_request_id` (a BIGINT primary key). */
  type ShiftId = int

  /** Ten minutes: how long a worker may keep a shift "in visione". The server
      sweep and the client countdown both use this value. */
  const LOCK_TTL_MS: int := 10 * 60 * 1000

  /** Prefix of the device tokens the Expo push service accepts. */
  const EXPO_TOKEN_PREFIX: string := "ExponentPushToken"

  /** JavaScript truthiness of an optional string: missing and "" are false. */
  predicate Present(s: Option<string>) {
    s.Some? && s.value != ""
  }

  /** `String.prototype.startsWith`. */
  predicate StartsWith(s: string, prefix: string) {
    |prefix| <= |s| && s[..|prefix|] == prefix
  }

  /** No element occurs twice. */
  predicate Distinct<T(==)>(xs: seq<T>) {
    forall i, j :: 0 <= i < j < |xs| ==> xs[i] != xs[j]
  }

  /** `sub` occurs in `s` at some offset (SQL `LIKE '%sub%'`). */
  predicate Contains(s: string, sub: string)
    decreases |s|
  {
    StartsWith(s, sub) || (|s| > 0 && Contains(s[1..], sub))
  }

  /** Index of the first element satisfying `p`: the row a `findOne` over a
      table in storage order returns. */
  function FirstIndex<T>(xs: seq<T>, p: T -> bool): (r: Option<nat>)
    ensures r.Some? ==> r.value < |xs| && p(xs[r.value])
    ensures r.Some? ==> forall k :: 0 <= k < r.value ==> !p(xs[k])
    ensures r.None? ==> forall k :: 0 <= k < |xs| ==> !p(xs[k])
  {
    if |xs| == 0 then None
    else if p(xs[0]) then Some(0)
    else match FirstIndex(xs[1..], p)
      case None => None
      case Some(k) => Some(k + 1)
  }
}

=== FILE: countdown.dfy ===
/** The lock countdown shown on a shift card of the mobile app: the time
    left before the ten-minute lock runs out, as `MM:SS`. */
module Countdown {
  import opened Common

  /** Lock time plus the same ten minutes the server sweep waits. */
  function Expiry(lockTime: Time): Time {
    lockTime + LOCK_TTL_MS
  }

  const MS_PER_SECOND: int := 1000
  const MS_PER_MINUTE: int := 60 * MS_PER_SECOND
  const MS_PER_HOUR: int := 60 * MS_PER_MINUTE

  predicate IsDigit(c: char) {
    '0' <= c <= '9'
  }

  function Digit(d: nat): (c: char)
    requires d < 10
    ensures IsDigit(c)
  {
    ('0' as int + d) as char
  }

  function DigitValue(c: char): nat
    requires IsDigit(c)
  {
    c as int - '0' as int
  }

  /** `Number.prototype.toString()` of a non-negative integer. */
  function DecimalString(n: nat): (r: string)
    ensures |r| >= 1
    ensures forall i :: 0 <= i < |r| ==> IsDigit(r[i])
    ensures r[|r| - 1] == Digit(n % 10)
    ensures n < 10 ==> |r| == 1
    ensures 10 <= n < 100 ==> |r| == 2
    decreases n
  {
    if n < 10 then [Digit(n)] else DecimalString(n / 10) + [Digit(n % 10)]
  }

  /** `padStart(2, '0')`. */
  function PadStart2(s: string): (r: string)
    ensures |s| >= 2 ==> r == s
    ensures |s| < 2 ==> |r| == 2 && r[2 - |s|..] == s && forall i :: 0 <= i < 2 - |s| ==> r[i] == '0'
  {
    if |s| >= 2 then s else seq(2 - |s|, _ => '0') + s
  }

  function Pad2(n: nat): string {
    PadStart2(DecimalString(n))
  }

  /** Reading two digits back as a number. */
  function TwoDigitValue(s: string): nat
    requires |s| == 2 && IsDigit(s[0]) && IsDigit(s[1])
  {
    10 * DigitValue(s[0]) + DigitValue(s[1])
  }

  /** Under 100 the padded string is two digits that read back as `n`. */
  lemma Pad2RoundTrip(n: nat)
    requires n < 100
    ensures |Pad2(n)| == 2 && IsDigit(Pad2(n)[0]) && IsDigit(Pad2(n)[1])
    ensures TwoDigitValue(Pad2(n)) == n
  {
    if n >= 10 {
      assert DecimalString(n) == DecimalString(n / 10) + [Digit(n % 10)];
      assert DecimalString(n / 10) == [Digit(n / 10)];
    }
  }

  /** The `MM:SS` shape. */
  predicate IsClock(r: string) {
    |r| == 5 && IsDigit(r[0]) && IsDigit(r[1]) && r[2] == ':' && IsDigit(r[3]) && IsDigit(r[4])
  }

  /** `calculateTimeLeft`: "00:00" once the lock has run out; otherwise the
      minutes within the hour and the seconds within the minute of the time
      remaining, each zero-padded to two digits. */
  function TimeLeft(lockTime: Time, now: Time): (r: string)
    ensures IsClock(r)
    ensures Expiry(lockTime) - now <= 0 ==> r == "00:00"
  {
    var diff := Expiry(lockTime) - now;
    if diff <= 0 then "00:00"
    else
      var minutes := (diff % MS_PER_HOUR) / MS_PER_MINUTE;
      var seconds := (diff % MS_PER_MINUTE) / MS_PER_SECOND;
      Pad2RoundTrip(minutes);
      Pad2RoundTrip(seconds);
      Pad2(minutes) + ":" + Pad2(seconds)
  }

  /** The minutes and seconds a clock string shows. */
  function ReadClock(r: string): (nat, nat)
    requires IsClock(r)
  {
    (TwoDigitValue(r[0..2]), TwoDigitValue(r[3..5]))
  }

  /** Splitting a duration into minutes within the hour and seconds within
      the minute loses less than a second of what remains within the hour. */
  lemma ClockFields(diff: int)
    ensures var h := diff % MS_PER_HOUR;
      var m := h / MS_PER_MINUTE;
      var s := (diff % MS_PER_MINUTE) / MS_PER_SECOND;
      && m < 60 && s < 60
      && m * MS_PER_MINUTE + s * MS_PER_SECOND <= h < m * MS_PER_MINUTE + s * MS_PER_SECOND + MS_PER_SECOND
  {
    var q := diff / 3600000;
    var h := diff % 3600000;
    var m := h / 60000;
    var rest := h % 60000;
    assert diff == q * 3600000 + h;
    assert h == m * 60000 + rest;
    assert diff == (q * 60 + m) * 60000 + rest;
    assert diff % 60000 == rest;
    var s := rest / 1000;
    assert rest == s * 1000 + rest % 1000;
  }

  /** While the lock runs, the countdown shows minutes and seconds below 60
      that add up to the time left within the hour, rounded down to the
      second; under an hour that is the time left itself. */
  lemma TimeLeftReadsBack(lockTime: Time, now: Time)
    requires Expiry(lockTime) - now > 0
    ensures var (m, s) := ReadClock(TimeLeft(lockTime, now));
      var diff := Expiry(lockTime) - now;
      && m < 60 && s < 60
      && m * MS_PER_MINUTE + s * MS_PER_SECOND <= diff % MS_PER_HOUR < m * MS_PER_MINUTE + s * MS_PER_SECOND + MS_PER_SECOND
      && (diff < MS_PER_HOUR ==> m * MS_PER_MINUTE + s * MS_PER_SECOND <= diff < m * MS_PER_MINUTE + s * MS_PER_SECOND + MS_PER_SECOND)
  {
    var diff := Expiry(lockTime) - now;
    var minutes := (diff % MS_PER_HOUR) / MS_PER_MINUTE;
    var seconds := (diff % MS_PER_MINUTE) / MS_PER_SECOND;
    ClockFields(diff);
    Pad2RoundTrip(minutes);
    Pad2RoundTrip(seconds);
    var r := TimeLeft(lockTime, now);
    assert r == Pad2(minutes) + ":" + Pad2(seconds);
    assert r[0..2] == Pad2(minutes);
    assert r[3..5] == Pad2(seconds);
  }
}

=== FILE: cron.dfy ===
/** The minute-by-minute job: release every lock older than ten minutes, then
    run targeting and dispatch for up to twenty open future shifts. The whole
    tick sits in one try/catch, so a thrown error ends the tick where it
    happens; writes already made stay (no transaction spans the tick). */
module Cron {
  import opened Common
  import opened Store
  import opened Targeting
  import opened Dispatch

  /** `limit: 20` on the query of open shifts. */
  const BATCH_LIMIT: nat := 20

  /** Label used when the shift's service has no description. */
  const DEFAULT_LABEL: string := "Nuova prestazione"

  /** The sweep's `WHERE`: status 3 and `blocked_time < NOW() - 10 minutes`
      (a missing lock time never compares true). */
  predicate Expired(sh: Shift, now: Time) {
    sh.status == LOCKED && sh.blockedTime.Some? && sh.blockedTime.value < now - LOCK_TTL_MS
  }

  /** The row after the release: free, no holder, no lock time. */
  function Release(sh: Shift): Shift {
    sh.(status := FREE, userAssigned := None, blockedTime := None)
  }

  /** Every Viewing row of the shift back to Proposed. */
  function ResetViewing(views: map<ViewKey, ViewRow>, id: ShiftId): map<ViewKey, ViewRow> {
    map k | k in views :: if k.1 == id && views[k].status == VIEWING then views[k].(status := PROPOSED) else views[k]
  }

  /** One iteration of the release loop. The row is released only if it is
      still an expired lock when written, so a lock accepted, refused or
      renewed since the sweep's query is left alone (see `StaleReleaseOne`
      for the write as the loop performs it). The view reset is guarded by
      the holder field, which the same iteration has just cleared, so it
      never runs and the view rows keep their status. */
  function ReleaseOne(s: State, id: ShiftId, now: Time): (r: State)
    requires id in s.shifts
    ensures r.views == s.views && r.receipts == s.receipts
    ensures Expired(s.shifts[id], now) ==> r.shifts == s.shifts[id := Release(s.shifts[id])]
    ensures !Expired(s.shifts[id], now) ==> r.shifts == s.shifts
  {
    if !Expired(s.shifts[id], now) then s
    else
      var released := Release(s.shifts[id]);
      var saved := s.(shifts := s.shifts[id := released]);
      if released.userAssigned.Some? then saved.(views := ResetViewing(saved.views, id)) else saved
  }

  /** The write of one loop iteration as the code performs it: `req.save()`
      on the instance the sweep's query returned sets the three changed
      columns whatever the row holds by then. */
  function StaleReleaseOne(s: State, id: ShiftId): (r: State)
    requires id in s.shifts
    ensures r.views == s.views && r.receipts == s.receipts
    ensures r.shifts == s.shifts[id := Release(s.shifts[id])]
  {
    s.(shifts := s.shifts[id := Release(s.shifts[id])])
  }

  /** The release loop over the rows the sweep query returned. */
  function ReleaseAll(s: State, ids: seq<ShiftId>, now: Time): (r: State)
    requires forall i :: 0 <= i < |ids| ==> ids[i] in s.shifts
    ensures r.views == s.views && r.receipts == s.receipts
    ensures r.shifts.Keys == s.shifts.Keys
    ensures forall id :: id in s.shifts ==>
      r.shifts[id] == if id in ids && Expired(s.shifts[id], now) then Release(s.shifts[id]) else s.shifts[id]
    decreases |ids|
  {
    if |ids| == 0 then s
    else
      var next := ReleaseOne(s, ids[0], now);
      assert forall id :: id in ids <==> id == ids[0] || id in ids[1..];
      ReleaseAll(next, ids[1..], now)
  }

  /** The release loop as the code performs it, with `StaleReleaseOne`. */
  function StaleAll(s: State, ids: seq<ShiftId>): (r: State)
    requires forall i :: 0 <= i < |ids| ==> ids[i] in s.shifts
    ensures r.views == s.views && r.receipts == s.receipts
    ensures r.shifts.Keys == s.shifts.Keys
    ensures forall id :: id in s.shifts ==>
      r.shifts[id] == if id in ids then Release(s.shifts[id]) else s.shifts[id]
    decreases |ids|
  {
    if |ids| == 0 then s
    else
      var next := StaleReleaseOne(s, ids[0]);
      assert forall id :: id in ids <==> id == ids[0] || id in ids[1..];
      StaleAll(next, ids[1..])
  }

  /** The ids of the expired locks among the rows, in the order the store
      returns them. */
  function ExpiredIn(s: State, now: Time, scan: seq<ShiftId>): (r: seq<ShiftId>)
    ensures forall id :: id in r <==> id in scan && id in s.shifts && Expired(s.shifts[id], now)
    ensures forall i :: 0 <= i < |r| ==> r[i] in s.shifts
  {
    if |scan| == 0 then []
    else
      var rest := ExpiredIn(s, now, scan[1..]);
      if scan[0] in s.shifts && Expired(s.shifts[scan[0]], now) then [scan[0]] + rest else rest
  }

  /** The sweep as one relation over the whole table: every expired lock is
      released, every other row and every view row is left alone. */
  function Sweep(s: State, now: Time): (r: State)
    ensures r.views == s.views && r.receipts == s.receipts
    ensures r.shifts.Keys == s.shifts.Keys
    ensures forall id :: id in s.shifts ==>
      r.shifts[id] == if Expired(s.shifts[id], now) then Release(s.shifts[id]) else s.shifts[id]
  {
    s.(shifts := map id | id in s.shifts :: if Expired(s.shifts[id], now) then Release(s.shifts[id]) else s.shifts[id])
  }

  /** The release loop over a scan that lists every row is the sweep. */
  lemma ReleaseLoopIsSweep(s: State, now: Time, scan: seq<ShiftId>)
    requires forall id :: id in s.shifts ==> id in scan
    ensures ReleaseAll(s, ExpiredIn(s, now, scan), now) == Sweep(s, now)
  {
    var a := ReleaseAll(s, ExpiredIn(s, now, scan), now);
    var b := Sweep(s, now);
    forall id | id in s.shifts
      ensures a.shifts[id] == b.shifts[id]
    {
      assert id in scan;
    }
    assert a.shifts == b.shifts;
  }

  /** When nothing else writes between the sweep's query and its saves, the
      guarded release and the save as written leave the same store. */
  lemma {:induction false} QuietSweepIsAsWritten(s: State, now: Time, scan: seq<ShiftId>)
    ensures ReleaseAll(s, ExpiredIn(s, now, scan), now) == StaleAll(s, ExpiredIn(s, now, scan))
  {
    var ids := ExpiredIn(s, now, scan);
    var a := ReleaseAll(s, ids, now);
    var b := StaleAll(s, ids);
    forall id | id in s.shifts
      ensures a.shifts[id] == b.shifts[id]
    {
      if id in ids {
        assert Expired(s.shifts[id], now);
      }
    }
    assert a.shifts == b.shifts;
  }

  /** A second sweep at the same time finds nothing and changes nothing. */
  lemma SweepIdempotent(s: State, now: Time)
    ensures forall id :: id in Sweep(s, now).shifts ==> !Expired(Sweep(s, now).shifts[id], now)
    ensures Sweep(Sweep(s, now), now) == Sweep(s, now)
  {
    var once := Sweep(s, now);
    assert Sweep(once, now).shifts == once.shifts;
  }

  /** Only expired locks are touched: a fresh lock, an assigned, done or free
      shift keeps its row. */
  lemma SweepSparesLiveShifts(s: State, now: Time, id: ShiftId)
    requires id in s.shifts
    requires s.shifts[id].status != LOCKED || (s.shifts[id].blockedTime.Some? && s.shifts[id].blockedTime.value >= now - LOCK_TTL_MS)
    ensures Sweep(s, now).shifts[id] == s.shifts[id]
  {
  }

  // ---------------------------------------------------------------------
  // Notification pass
  // ---------------------------------------------------------------------

  /** The notification query's `WHERE`: free and strictly in the future. */
  predicate Openable(s: State, now: Time, id: ShiftId) {
    id in s.shifts && s.shifts[id].status == FREE && s.shifts[id].dateTime > now
  }

  /** The store returns the open future shifts in an unspecified order (no
      `ORDER BY`), given as `scan`; `limit: 20` keeps the first twenty. */
  function Collect(s: State, now: Time, scan: seq<ShiftId>, acc: seq<ShiftId>): (b: seq<ShiftId>)
    requires |acc| <= BATCH_LIMIT && Distinct(acc)
    requires forall i :: 0 <= i < |acc| ==> Openable(s, now, acc[i])
    ensures |b| <= BATCH_LIMIT && Distinct(b)
    ensures forall i :: 0 <= i < |b| ==> Openable(s, now, b[i])
    ensures acc <= b
    ensures forall id :: id in b ==> id in acc || id in scan
    ensures |b| < BATCH_LIMIT ==> forall id :: id in scan && Openable(s, now, id) ==> id in b
    decreases |scan|
  {
    if |scan| == 0 || |acc| == BATCH_LIMIT then acc
    else
      var id := scan[0];
      var next := if Openable(s, now, id) && id !in acc then acc + [id] else acc;
      var b := Collect(s, now, scan[1..], next);
      assert forall x :: x in next ==> x in b by {
        forall x | x in next ensures x in b {
          var k :| 0 <= k < |next| && next[k] == x;
          assert b[k] == x;
        }
      }
      assert forall x :: x in scan <==> x == id || x in scan[1..];
      b
  }

  function Batch(s: State, now: Time, scan: seq<ShiftId>): (b: seq<ShiftId>)
    ensures |b| <= BATCH_LIMIT && Distinct(b)
    ensures forall i :: 0 <= i < |b| ==> Openable(s, now, b[i])
    ensures forall id :: id in b ==> id in scan
    ensures |b| < BATCH_LIMIT ==> forall id :: id in scan && Openable(s, now, id) ==> id in b
  {
    Collect(s, now, scan, [])
  }

  /** `Service?.service_description || 'Nuova prestazione'`. */
  function Label(sh: Shift): (r: string)
    ensures sh.info.Some? && sh.info.value.description != "" ==> r == sh.info.value.description
    ensures sh.info.None? || sh.info.value.description == "" ==> r == DEFAULT_LABEL
  {
    if sh.info.Some? && sh.info.value.description != "" then sh.info.value.description else DEFAULT_LABEL
  }

  /** What targeting and dispatch cannot see: the worker directory, the
      distance test, the calendar, and the outcome of each shift's push and
      view insert. */
  datatype World = World(
    directory: seq<Worker>,
    near: Near,
    localTime: Time -> LocalTime,
    pushOk: ShiftId -> bool,
    viewsOk: ShiftId -> bool)

  /** What the tick cannot see: the order in which the store returns rows,
      the world, and the index of the step (if any) that throws. */
  datatype TickEnv = TickEnv(scan: seq<ShiftId>, world: World, failAt: Option<nat>)

  /** One call of `sendPushToTargets`. */
  datatype DispatchCall = DispatchCall(id: ShiftId, message: string, targets: seq<Target>)

  datatype TickResult = TickResult(state: State, calls: seq<DispatchCall>, completed: bool)

  function TargetsFor(sh: Shift, w: World): seq<Target> {
    FindTargets(OfShift(sh), w.localTime(sh.dateTime), w.directory, w.near)
  }

  /** A call that the tick makes for one of `shifts`. */
  predicate IsCallFor(shifts: map<ShiftId, Shift>, w: World, c: DispatchCall) {
    && c.id in shifts
    && c.targets == TargetsFor(shifts[c.id], w)
    && |c.targets| > 0
    && c.message == Label(shifts[c.id])
  }

  /** What a dispatch of shift `id` leaves behind for candidate `t`: a view
      row when the insert went through, and a receipt when the push went
      through and `t` has an Expo token. Either one keeps the next tick from
      proposing or pushing the shift to `t` again. */
  predicate Recorded(s: State, w: World, id: ShiftId, t: Target) {
    && (w.viewsOk(id) ==> (t.username, id) in s.views)
    && (w.pushOk(id) && Present(t.device) && StartsWith(t.device.value, EXPO_TOKEN_PREFIX) ==>
          HasReceipt(s.receipts, t.username, id))
  }

  /** Later writes only add receipts and view rows, so a record stays. */
  lemma RecordedPersists(s: State, r: State, w: World, id: ShiftId, t: Target)
    requires Recorded(s, w, id, t)
    requires s.receipts <= r.receipts && s.views.Keys <= r.views.Keys
    ensures Recorded(r, w, id, t)
  {
    if HasReceipt(s.receipts, t.username, id) {
      assert r.receipts == s.receipts + r.receipts[|s.receipts|..];
      ReceiptsPersist(s.receipts, r.receipts[|s.receipts|..], t.username, id);
    }
  }

  /** Targeting and dispatch for one shift; no dispatch without candidates. */
  function NotifyOne(s: State, now: Time, id: ShiftId, w: World): (r: (State, seq<DispatchCall>))
    requires id in s.shifts
    ensures r.0.shifts == s.shifts && s.receipts <= r.0.receipts
    ensures forall k :: k in s.views ==> k in r.0.views && r.0.views[k] == s.views[k]
    ensures |TargetsFor(s.shifts[id], w)| == 0 ==> r == (s, [])
    ensures |TargetsFor(s.shifts[id], w)| > 0 ==> r.1 == [DispatchCall(id, Label(s.shifts[id]), TargetsFor(s.shifts[id], w))]
    ensures |TargetsFor(s.shifts[id], w)| > 0 ==>
      r.0 == SendPush(s, id, Label(s.shifts[id]), TargetsFor(s.shifts[id], w), w.pushOk(id), w.viewsOk(id), now)
    ensures forall t :: t in TargetsFor(s.shifts[id], w) ==> Recorded(r.0, w, id, t)
  {
    var sh := s.shifts[id];
    var targets := TargetsFor(sh, w);
    if |targets| > 0 then
      SendPushRecords(s, id, Label(sh), targets, w.pushOk(id), w.viewsOk(id), now);
      (SendPush(s, id, Label(sh), targets, w.pushOk(id), w.viewsOk(id), now), [DispatchCall(id, Label(sh), targets)])
    else (s, [])
  }

  /** The notification loop over the batch. */
  function NotifyAll(s: State, now: Time, ids: seq<ShiftId>, w: World): (r: (State, seq<DispatchCall>))
    requires forall i :: 0 <= i < |ids| ==> ids[i] in s.shifts
    ensures r.0.shifts == s.shifts && s.receipts <= r.0.receipts
    ensures forall k :: k in s.views ==> k in r.0.views && r.0.views[k] == s.views[k]
    ensures |r.1| <= |ids|
    ensures forall j :: 0 <= j < |r.1| ==> r.1[j].id in ids && IsCallFor(s.shifts, w, r.1[j])
    decreases |ids|
  {
    if |ids| == 0 then (s, [])
    else
      var first := NotifyOne(s, now, ids[0], w);
      var rest := NotifyAll(first.0, now, ids[1..], w);
      CallsAppend(s.shifts, w, ids, first.1, rest.1);
      (rest.0, first.1 + rest.1)
  }

  lemma CallsAppend(shifts: map<ShiftId, Shift>, w: World, ids: seq<ShiftId>, c: seq<DispatchCall>, cs: seq<DispatchCall>)
    requires |ids| > 0 && |c| <= 1
    requires forall j :: 0 <= j < |c| ==> c[j].id == ids[0] && IsCallFor(shifts, w, c[j])
    requires forall j :: 0 <= j < |cs| ==> cs[j].id in ids[1..] && IsCallFor(shifts, w, cs[j])
    ensures forall j :: 0 <= j < |c + cs| ==> (c + cs)[j].id in ids && IsCallFor(shifts, w, (c + cs)[j])
  {
    assert forall j :: 0 <= j < |cs| ==> (c + cs)[|c| + j] == cs[j];
  }

  /** After the loop, every candidate of every shift of the loop carries the
      records of its shift's dispatch. */
  lemma {:induction false} NotifyAllRecords(s: State, now: Time, ids: seq<ShiftId>, w: World)
    requires forall i :: 0 <= i < |ids| ==> ids[i] in s.shifts
    ensures forall i, t :: 0 <= i < |ids| && t in TargetsFor(s.shifts[ids[i]], w) ==>
      Recorded(NotifyAll(s, now, ids, w).0, w, ids[i], t)
    decreases |ids|
  {
    if |ids| > 0 {
      var s1 := NotifyOne(s, now, ids[0], w).0;
      var r := NotifyAll(s, now, ids, w).0;
      assert r == NotifyAll(s1, now, ids[1..], w).0;
      NotifyAllRecords(s1, now, ids[1..], w);
      forall i, t | 0 <= i < |ids| && t in TargetsFor(s.shifts[ids[i]], w)
        ensures Recorded(r, w, ids[i], t)
      {
        if i == 0 {
          RecordedPersists(s1, r, w, ids[0], t);
        } else {
          assert ids[1..][i - 1] == ids[i];
        }
      }
    }
  }

  /** Some call of `calls` is for shift `id` and names `user` among its
      candidates. */
  predicate WrittenFor(calls: seq<DispatchCall>, user: UserName, id: ShiftId) {
    exists j :: 0 <= j < |calls| && calls[j].id == id && CandidateOf(calls[j].targets, user)
  }

  /** A call of either part is a call of the whole. */
  lemma WrittenForAppend(c: seq<DispatchCall>, cs: seq<DispatchCall>, user: UserName, id: ShiftId)
    requires WrittenFor(c, user, id) || WrittenFor(cs, user, id)
    ensures WrittenFor(c + cs, user, id)
  {
    if WrittenFor(c, user, id) {
      var j :| 0 <= j < |c| && c[j].id == id && CandidateOf(c[j].targets, user);
      assert (c + cs)[j] == c[j];
    } else {
      var j :| 0 <= j < |cs| && cs[j].id == id && CandidateOf(cs[j].targets, user);
      assert (c + cs)[|c| + j] == cs[j];
    }
  }

  /** One shift's dispatch writes only for the candidates of its call. */
  lemma NotifyOneOnlyCandidates(s: State, now: Time, id: ShiftId, w: World)
    requires id in s.shifts
    ensures var r := NotifyOne(s, now, id, w);
      && (forall k :: k in r.0.views && k !in s.views ==> WrittenFor(r.1, k.0, k.1))
      && (forall i :: |s.receipts| <= i < |r.0.receipts| ==>
            WrittenFor(r.1, r.0.receipts[i].user, r.0.receipts[i].requestId))
  {
    var sh := s.shifts[id];
    var targets := TargetsFor(sh, w);
    if |targets| > 0 {
      var r := NotifyOne(s, now, id, w);
      SendPushOnlyCandidates(s, id, Label(sh), targets, w.pushOk(id), w.viewsOk(id), now);
      assert r.1[0].id == id && r.1[0].targets == targets;
    }
  }

  /** The loop writes view rows only for the candidates of its own
      dispatches: every view row it adds belongs to a call it made and to one
      of that call's candidates. */
  lemma {:induction false} NotifyAllViewsOnlyCandidates(s: State, now: Time, ids: seq<ShiftId>, w: World)
    requires forall i :: 0 <= i < |ids| ==> ids[i] in s.shifts
    ensures var r := NotifyAll(s, now, ids, w);
      forall k :: k in r.0.views && k !in s.views ==> WrittenFor(r.1, k.0, k.1)
    decreases |ids|
  {
    if |ids| > 0 {
      var one := NotifyOne(s, now, ids[0], w);
      var rest := NotifyAll(one.0, now, ids[1..], w);
      assert NotifyAll(s, now, ids, w) == (rest.0, one.1 + rest.1);
      NotifyOneOnlyCandidates(s, now, ids[0], w);
      NotifyAllViewsOnlyCandidates(one.0, now, ids[1..], w);
      forall k | k in rest.0.views && k !in s.views
        ensures WrittenFor(one.1 + rest.1, k.0, k.1)
      {
        WrittenForAppend(one.1, rest.1, k.0, k.1);
      }
    }
  }

  /** Every receipt from index `from` on is for a candidate of one of `calls`. */
  predicate ReceiptsWrittenFor(receipts: seq<Receipt>, from: nat, calls: seq<DispatchCall>) {
    forall i :: from <= i < |receipts| ==> WrittenFor(calls, receipts[i].user, receipts[i].requestId)
  }

  /** The loop appends receipts only for the candidates of its own
      dispatches. */
  lemma {:induction false} NotifyAllReceiptsOnlyCandidates(s: State, now: Time, ids: seq<ShiftId>, w: World)
    requires forall i :: 0 <= i < |ids| ==> ids[i] in s.shifts
    ensures var r := NotifyAll(s, now, ids, w);
      ReceiptsWrittenFor(r.0.receipts, |s.receipts|, r.1)
    decreases |ids|
  {
    if |ids| > 0 {
      var one := NotifyOne(s, now, ids[0], w);
      var rest := NotifyAll(one.0, now, ids[1..], w);
      assert NotifyAll(s, now, ids, w) == (rest.0, one.1 + rest.1);
      NotifyOneOnlyCandidates(s, now, ids[0], w);
      NotifyAllReceiptsOnlyCandidates(one.0, now, ids[1..], w);
      assert ReceiptsWrittenFor(rest.0.receipts, |one.0.receipts|, rest.1);
      forall i | |s.receipts| <= i < |rest.0.receipts|
        ensures WrittenFor(one.1 + rest.1, rest.0.receipts[i].user, rest.0.receipts[i].requestId)
      {
        if i < |one.0.receipts| {
          assert rest.0.receipts[i] == one.0.receipts[i];
        }
        WrittenForAppend(one.1, rest.1, rest.0.receipts[i].user, rest.0.receipts[i].requestId);
      }
    }
  }

  /** Some call in `calls` is for shift `id`. */
  predicate Dispatched(calls: seq<DispatchCall>, id: ShiftId) {
    exists j :: 0 <= j < |calls| && calls[j].id == id
  }

  /** Every shift of the loop that has candidates is dispatched. */
  lemma {:induction false} NotifyCoversCandidates(s: State, now: Time, ids: seq<ShiftId>, w: World)
    requires forall i :: 0 <= i < |ids| ==> ids[i] in s.shifts
    ensures forall i :: 0 <= i < |ids| && |TargetsFor(s.shifts[ids[i]], w)| > 0 ==>
      Dispatched(NotifyAll(s, now, ids, w).1, ids[i])
    decreases |ids|
  {
    if |ids| > 0 {
      var one := NotifyOne(s, now, ids[0], w);
      var s1 := one.0;
      var c := one.1;
      var cs := NotifyAll(s1, now, ids[1..], w).1;
      var r := NotifyAll(s, now, ids, w).1;
      assert r == c + cs;
      NotifyCoversCandidates(s1, now, ids[1..], w);
      forall i | 0 <= i < |ids| && |TargetsFor(s.shifts[ids[i]], w)| > 0
        ensures Dispatched(r, ids[i])
      {
        if i == 0 {
          assert r[0].id == ids[0];
        } else {
          assert ids[1..][i - 1] == ids[i];
          assert s1.shifts == s.shifts;
          assert Dispatched(cs, ids[1..][i - 1]);
          var j :| 0 <= j < |cs| && cs[j].id == ids[1..][i - 1];
          assert r[|c| + j] == cs[j];
        }
      }
    }
  }

  /** A shorter loop makes a prefix of the calls of a longer one. */
  lemma {:induction false} NotifyPrefix(s: State, now: Time, ids: seq<ShiftId>, m: nat, w: World)
    requires m <= |ids|
    requires forall i :: 0 <= i < |ids| ==> ids[i] in s.shifts
    ensures NotifyAll(s, now, ids[..m], w).1 <= NotifyAll(s, now, ids, w).1
    decreases m
  {
    if m > 0 {
      var s1 := NotifyOne(s, now, ids[0], w).0;
      assert ids[..m][0] == ids[0];
      assert ids[..m][1..] == ids[1..][..m - 1];
      NotifyPrefix(s1, now, ids[1..], m - 1, w);
    }
  }

  /** The shifts the notification pass takes: queried after the releases, so
      a lock released in this tick can be notified again in the same tick. */
  function TickBatch(s: State, now: Time, scan: seq<ShiftId>): seq<ShiftId> {
    Batch(ReleaseAll(s, ExpiredIn(s, now, scan), now), now, scan)
  }

  /** One tick. Steps are numbered from 0: first the releases, then the
      notification of each batch shift; `env.failAt` names the step that
      throws, after which nothing else runs. */
  function Tick(s: State, now: Time, env: TickEnv): (r: TickResult)
    ensures s.receipts <= r.state.receipts
    ensures forall k :: k in s.views ==> k in r.state.views && r.state.views[k] == s.views[k]
    ensures r.state.shifts.Keys == s.shifts.Keys
    ensures forall id :: id in s.shifts ==>
      r.state.shifts[id] == s.shifts[id] || (Expired(s.shifts[id], now) && r.state.shifts[id] == Release(s.shifts[id]))
    ensures |r.calls| <= BATCH_LIMIT
    ensures forall j :: 0 <= j < |r.calls| ==>
      var id := r.calls[j].id;
      && id in s.shifts && r.state.shifts[id].status == FREE && s.shifts[id].dateTime > now
      && id in env.scan
    ensures r.completed <==>
      env.failAt.None? || env.failAt.value >= |ExpiredIn(s, now, env.scan)| + |TickBatch(s, now, env.scan)|
    ensures env.failAt.Some? && env.failAt.value < |ExpiredIn(s, now, env.scan)| ==>
      && r.calls == []
      && r.state == ReleaseAll(s, ExpiredIn(s, now, env.scan)[..env.failAt.value], now)
    ensures env.failAt.Some? && env.failAt.value >= |ExpiredIn(s, now, env.scan)| ==>
      |r.calls| <= env.failAt.value - |ExpiredIn(s, now, env.scan)|
  {
    var expired := ExpiredIn(s, now, env.scan);
    if env.failAt.Some? && env.failAt.value < |expired| then
      TickResult(ReleaseAll(s, expired[..env.failAt.value], now), [], false)
    else
      var released := ReleaseAll(s, expired, now);
      var batch := TickBatch(s, now, env.scan);
      var budget := if env.failAt.Some? then env.failAt.value - |expired| else |batch|;
      var run := if budget < |batch| then batch[..budget] else batch;
      assert |run| <= budget && |run| <= |batch|;
      assert forall i :: 0 <= i < |run| ==> run[i] in batch;
      var notified := NotifyAll(released, now, run, env.world);
      TickResult(notified.0, notified.1, budget >= |batch|)
  }

  /** A thrown error only cuts the tick short: the dispatches made before it
      are the first dispatches of the tick that does not fail. */
  lemma TickAbortIsPrefix(s: State, now: Time, env: TickEnv)
    ensures Tick(s, now, env).calls <= Tick(s, now, env.(failAt := None)).calls
  {
    var expired := ExpiredIn(s, now, env.scan);
    if !(env.failAt.Some? && env.failAt.value < |expired|) {
      var released := ReleaseAll(s, expired, now);
      var batch := TickBatch(s, now, env.scan);
      var budget := if env.failAt.Some? then env.failAt.value - |expired| else |batch|;
      if budget < |batch| {
        NotifyPrefix(released, now, batch, budget, env.world);
      } else {
        assert batch[..|batch|] == batch;
      }
    }
  }

  /** A tick that does not fail and whose scan lists every row releases
      exactly the expired locks, like `Sweep`. */
  lemma TickReleasesLikeSweep(s: State, now: Time, env: TickEnv)
    requires env.failAt.None?
    requires forall id :: id in s.shifts ==> id in env.scan
    ensures Tick(s, now, env).state.shifts == Sweep(s, now).shifts
  {
    ReleaseLoopIsSweep(s, now, env.scan);
  }

  /** A lock released by the sweep, on a shift still in the future, is taken
      by the same tick's notification pass unless the batch is already full. */
  lemma ReleasedShiftIsRequeued(s: State, now: Time, scan: seq<ShiftId>, id: ShiftId)
    requires id in scan && id in s.shifts
    requires Expired(s.shifts[id], now) && s.shifts[id].dateTime > now
    ensures id in TickBatch(s, now, scan) || |TickBatch(s, now, scan)| == BATCH_LIMIT
  {
  }

  /** When the tick does not fail, every candidate of every batch shift ends
      the tick with a view row for it if the shift's insert went through, and
      with a receipt if its push went through and the candidate has an Expo
      token: the writes that make the next tick skip the shift. */
  lemma TickRecordsDispatch(s: State, now: Time, env: TickEnv, id: ShiftId, t: Target)
    requires env.failAt.None?
    requires id in TickBatch(s, now, env.scan)
    requires t in TargetsFor(ReleaseAll(s, ExpiredIn(s, now, env.scan), now).shifts[id], env.world)
    ensures env.world.viewsOk(id) ==> (t.username, id) in Tick(s, now, env).state.views
    ensures env.world.pushOk(id) && Present(t.device) && StartsWith(t.device.value, EXPO_TOKEN_PREFIX) ==>
      HasReceipt(Tick(s, now, env).state.receipts, t.username, id)
  {
    var released := ReleaseAll(s, ExpiredIn(s, now, env.scan), now);
    var batch := TickBatch(s, now, env.scan);
    assert batch[..|batch|] == batch;
    assert Tick(s, now, env).state == NotifyAll(released, now, batch, env.world).0;
    NotifyAllRecords(released, now, batch, env.world);
    var i :| 0 <= i < |batch| && batch[i] == id;
    assert Recorded(Tick(s, now, env).state, env.world, batch[i], t);
  }

  /** When the tick does not fail, every batch shift with candidates gets
      exactly the dispatch the targeting computed for it. */
  lemma TickDispatchesEveryCandidateShift(s: State, now: Time, env: TickEnv, id: ShiftId)
    requires env.failAt.None?
    requires id in TickBatch(s, now, env.scan)
    requires |TargetsFor(ReleaseAll(s, ExpiredIn(s, now, env.scan), now).shifts[id], env.world)| > 0
    ensures Dispatched(Tick(s, now, env).calls, id)
    ensures var sh := ReleaseAll(s, ExpiredIn(s, now, env.scan), now).shifts[id];
      exists j :: 0 <= j < |Tick(s, now, env).calls| &&
        Tick(s, now, env).calls[j] == DispatchCall(id, Label(sh), TargetsFor(sh, env.world))
  {
    var released := ReleaseAll(s, ExpiredIn(s, now, env.scan), now);
    var batch := TickBatch(s, now, env.scan);
    var calls := Tick(s, now, env).calls;
    assert batch[..|batch|] == batch;
    assert calls == NotifyAll(released, now, batch, env.world).1;
    NotifyCoversCandidates(released, now, batch, env.world);
    var i :| 0 <= i < |batch| && batch[i] == id;
    assert Dispatched(calls, batch[i]);
    var j :| 0 <= j < |calls| && calls[j].id == id;
    assert IsCallFor(released.shifts, env.world, calls[j]);
  }

  /** The notification pass of a tick whose releases all ran: the loop over
      the batch, cut at the step that throws. */
  function TickRun(s: State, now: Time, env: TickEnv): (run: seq<ShiftId>)
    ensures run <= TickBatch(s, now, env.scan)
  {
    var expired := ExpiredIn(s, now, env.scan);
    var batch := TickBatch(s, now, env.scan);
    var budget := if env.failAt.Some? && env.failAt.value >= |expired| then env.failAt.value - |expired| else |batch|;
    if budget < |batch| then batch[..budget] else batch
  }

  /** A tick whose releases all ran is the release loop followed by the
      notification loop over `TickRun`. */
  lemma TickIsReleaseThenNotify(s: State, now: Time, env: TickEnv)
    requires !(env.failAt.Some? && env.failAt.value < |ExpiredIn(s, now, env.scan)|)
    ensures var released := ReleaseAll(s, ExpiredIn(s, now, env.scan), now);
      var run := TickRun(s, now, env);
      && (forall i :: 0 <= i < |run| ==> run[i] in released.shifts)
      && Tick(s, now, env).state == NotifyAll(released, now, run, env.world).0
      && Tick(s, now, env).calls == NotifyAll(released, now, run, env.world).1
  {
    var batch := TickBatch(s, now, env.scan);
    var run := TickRun(s, now, env);
    assert forall i :: 0 <= i < |run| ==> run[i] == batch[i];
  }

  /** Whether or not it fails, each dispatch of a tick carries the label and
      the candidates the targeting computed for its shift after the sweep. */
  lemma TickCallsAreTargeted(s: State, now: Time, env: TickEnv)
    ensures var r := Tick(s, now, env);
      forall j :: 0 <= j < |r.calls| ==>
        IsCallFor(ReleaseAll(s, ExpiredIn(s, now, env.scan), now).shifts, env.world, r.calls[j])
  {
    if !(env.failAt.Some? && env.failAt.value < |ExpiredIn(s, now, env.scan)|) {
      TickIsReleaseThenNotify(s, now, env);
    }
  }

  /** Whether or not it fails, a tick writes only for the candidates of the
      dispatches it made: no one else gets a view row, and so no one else sees
      the shift offered, and no one else gets a receipt. */
  lemma TickWritesOnlyForCalls(s: State, now: Time, env: TickEnv)
    ensures var r := Tick(s, now, env);
      && (forall k :: k in r.state.views && k !in s.views ==> WrittenFor(r.calls, k.0, k.1))
      && (forall i :: |s.receipts| <= i < |r.state.receipts| ==>
            WrittenFor(r.calls, r.state.receipts[i].user, r.state.receipts[i].requestId))
  {
    if !(env.failAt.Some? && env.failAt.value < |ExpiredIn(s, now, env.scan)|) {
      var released := ReleaseAll(s, ExpiredIn(s, now, env.scan), now);
      TickIsReleaseThenNotify(s, now, env);
      NotifyAllViewsOnlyCandidates(released, now, TickRun(s, now, env), env.world);
      NotifyAllReceiptsOnlyCandidates(released, now, TickRun(s, now, env), env.world);
    }
  }

}

=== FILE: dispatch.dfy ===
/** `sendPushToTargets`: two independent de-duplications over the candidate
    rows of one shift. Push messages go only to workers with an Expo device
    token who have no Notification row for the shift; view rows are inserted
    only for workers with no view row of any status for the shift. The push
    transport and the two bulk inserts are reduced to their outcomes. */
module Dispatch {
  import opened Common
  import opened Store
  import opened Targeting

  const PUSH_TITLE: string := "C'\U{E8} una nuova richiesta nella tua zona!"

  /** A candidate who gets a push: a token with the Expo prefix, and no
      receipt yet for this shift. */
  predicate PushEligible(s: State, id: ShiftId, t: Target) {
    && Present(t.device)
    && StartsWith(t.device.value, EXPO_TOKEN_PREFIX)
    && !HasReceipt(s.receipts, t.username, id)
  }

  /** A candidate who gets a proposed view row: none exists for this shift,
      whatever its status, so a refusal is never overwritten. */
  predicate ViewEligible(s: State, id: ShiftId, t: Target) {
    (t.username, id) !in s.views
  }

  function PushTargets(s: State, id: ShiftId, targets: seq<Target>): (r: seq<Target>)
    ensures forall t :: t in r <==> t in targets && PushEligible(s, id, t)
    ensures r == [] <==> forall t :: t in targets ==> !PushEligible(s, id, t)
    ensures |r| <= |targets|
  {
    if |targets| == 0 then []
    else (if PushEligible(s, id, targets[0]) then [targets[0]] else []) + PushTargets(s, id, targets[1..])
  }

  function ViewTargets(s: State, id: ShiftId, targets: seq<Target>): (r: seq<Target>)
    ensures forall t :: t in r <==> t in targets && ViewEligible(s, id, t)
    ensures r == [] <==> forall t :: t in targets ==> !ViewEligible(s, id, t)
    ensures |r| <= |targets|
  {
    if |targets| == 0 then []
    else (if ViewEligible(s, id, targets[0]) then [targets[0]] else []) + ViewTargets(s, id, targets[1..])
  }

  /** One receipt row per push target, marked sent. */
  function ReceiptsFor(targets: seq<Target>, id: ShiftId, message: string, now: Time): (r: seq<Receipt>)
    ensures |r| == |targets|
    ensures forall i :: 0 <= i < |r| ==> r[i] == Receipt(targets[i].username, id, PUSH_TITLE, message, 1, now)
  {
    if |targets| == 0 then []
    else [Receipt(targets[0].username, id, PUSH_TITLE, message, 1, now)] + ReceiptsFor(targets[1..], id, message, now)
  }

  /** The row inserted for a newly proposed worker. */
  function ProposedRow(now: Time): ViewRow {
    ViewRow(PROPOSED, 1, 0, now)
  }

  /** `bulkCreate(rows, {ignoreDuplicates: true})`: a key already present keeps its row. */
  function InsertViews(views: map<ViewKey, ViewRow>, targets: seq<Target>, id: ShiftId, now: Time): (r: map<ViewKey, ViewRow>)
    ensures r.Keys == views.Keys + set t | t in targets :: (t.username, id)
    ensures forall k :: k in views ==> r[k] == views[k]
    ensures forall k :: k in r && k !in views ==> r[k] == ProposedRow(now)
    decreases |targets|
  {
    if |targets| == 0 then views
    else
      var key := (targets[0].username, id);
      var next := if key in views then views else views[key := ProposedRow(now)];
      var r := InsertViews(next, targets[1..], id, now);
      assert forall t :: t in targets <==> t == targets[0] || t in targets[1..];
      r
  }

  /** `sendPushToTargets(id, message, targets)`. `pushOk` is whether the
      transport call and the receipt insert went through; `viewsOk` whether
      the view-row insert did. Both filters read the tables as they were
      before either insert. */
  function SendPush(s: State, id: ShiftId, message: string, targets: seq<Target>, pushOk: bool, viewsOk: bool, now: Time): (r: State)
    ensures r.shifts == s.shifts
    ensures pushOk ==> r.receipts == s.receipts + ReceiptsFor(PushTargets(s, id, targets), id, message, now)
    ensures !pushOk ==> r.receipts == s.receipts
    ensures viewsOk ==> r.views.Keys == s.views.Keys + set t | t in targets :: (t.username, id)
    ensures !viewsOk ==> r.views == s.views
    ensures forall k :: k in s.views ==> k in r.views && r.views[k] == s.views[k]
    ensures forall k :: k in r.views && k !in s.views ==> r.views[k] == ProposedRow(now)
  {
    var push := PushTargets(s, id, targets);
    var unseen := ViewTargets(s, id, targets);
    var receipts := if |push| > 0 && pushOk then s.receipts + ReceiptsFor(push, id, message, now) else s.receipts;
    var views := if |unseen| > 0 && viewsOk then InsertViews(s.views, unseen, id, now) else s.views;
    assert viewsOk ==> (set t | t in targets :: (t.username, id)) <= s.views.Keys + set t | t in unseen :: (t.username, id);
    s.(receipts := receipts, views := views)
  }

  /** A receipt, once written, stays: the table only grows at its end. */
  lemma ReceiptsPersist(receipts: seq<Receipt>, extra: seq<Receipt>, user: UserName, id: ShiftId)
    requires HasReceipt(receipts, user, id)
    ensures HasReceipt(receipts + extra, user, id)
  {
    var i :| 0 <= i < |receipts| && receipts[i].user == user && receipts[i].requestId == id;
    assert (receipts + extra)[i] == receipts[i];
  }

  /** After a dispatch, every candidate has a view row for the shift if the
      insert went through, and a receipt for it if the push went through and
      the candidate has an Expo token, whether the row or receipt is new or
      was there before. */
  lemma SendPushRecords(s: State, id: ShiftId, message: string, targets: seq<Target>, pushOk: bool, viewsOk: bool, now: Time)
    ensures var r := SendPush(s, id, message, targets, pushOk, viewsOk, now);
      forall t :: t in targets ==>
        && (viewsOk ==> (t.username, id) in r.views)
        && (pushOk && Present(t.device) && StartsWith(t.device.value, EXPO_TOKEN_PREFIX) ==>
              HasReceipt(r.receipts, t.username, id))
  {
    var r := SendPush(s, id, message, targets, pushOk, viewsOk, now);
    var push := PushTargets(s, id, targets);
    var sent := ReceiptsFor(push, id, message, now);
    forall t | t in targets && pushOk && Present(t.device) && StartsWith(t.device.value, EXPO_TOKEN_PREFIX)
      ensures HasReceipt(r.receipts, t.username, id)
    {
      if HasReceipt(s.receipts, t.username, id) {
        ReceiptsPersist(s.receipts, sent, t.username, id);
      } else {
        assert t in push;
        var j :| 0 <= j < |push| && push[j] == t;
        assert r.receipts[|s.receipts| + j] == sent[j];
      }
    }
  }

  /** `user` is the name of one of the candidates. */
  predicate CandidateOf(targets: seq<Target>, user: UserName) {
    exists t :: t in targets && t.username == user
  }

  /** A dispatch writes for its own candidates and no one else: every new
      view row and every new receipt is for the shift and a candidate. */
  lemma SendPushOnlyCandidates(s: State, id: ShiftId, message: string, targets: seq<Target>, pushOk: bool, viewsOk: bool, now: Time)
    ensures var r := SendPush(s, id, message, targets, pushOk, viewsOk, now);
      && (forall k :: k in r.views && k !in s.views ==> k.1 == id && CandidateOf(targets, k.0))
      && (forall i :: |s.receipts| <= i < |r.receipts| ==>
            r.receipts[i].requestId == id && CandidateOf(targets, r.receipts[i].user))
  {
    var r := SendPush(s, id, message, targets, pushOk, viewsOk, now);
    forall k | k in r.views && k !in s.views
      ensures k.1 == id && CandidateOf(targets, k.0)
    {
      assert k in set t | t in targets :: (t.username, id);
      var t :| t in targets && (t.username, id) == k;
    }
    if pushOk {
      var push := PushTargets(s, id, targets);
      var sent := ReceiptsFor(push, id, message, now);
      forall i | |s.receipts| <= i < |r.receipts|
        ensures r.receipts[i].requestId == id && CandidateOf(targets, r.receipts[i].user)
      {
        assert r.receipts[i] == sent[i - |s.receipts|];
        assert push[i - |s.receipts|] in push;
      }
    }
  }

  /** A worker refused for a shift stays refused through any dispatch. */
  lemma RefusalSurvivesDispatch(s: State, id: ShiftId, message: string, targets: seq<Target>, pushOk: bool, viewsOk: bool, now: Time, user: UserName)
    requires (user, id) in s.views && s.views[(user, id)].status == REFUSED
    ensures var r := SendPush(s, id, message, targets, pushOk, viewsOk, now);
      (user, id) in r.views && r.views[(user, id)].status == REFUSED
  {
  }

  /** After a dispatch whose push and insert both went through, the same
      dispatch again sends nothing and inserts nothing. */
  lemma RepeatDispatchIsNoop(s: State, id: ShiftId, message: string, targets: seq<Target>, now: Time,
                             message2: string, pushOk2: bool, viewsOk2: bool, now2: Time)
    ensures var r := SendPush(s, id, message, targets, true, true, now);
      && PushTargets(r, id, targets) == []
      && ViewTargets(r, id, targets) == []
      && SendPush(r, id, message2, targets, pushOk2, viewsOk2, now2) == r
  {
    var r := SendPush(s, id, message, targets, true, true, now);
    var push := PushTargets(s, id, targets);
    var sent := ReceiptsFor(push, id, message, now);
    forall t | t in targets
      ensures !PushEligible(r, id, t)
    {
      if Present(t.device) && StartsWith(t.device.value, EXPO_TOKEN_PREFIX) {
        if HasReceipt(s.receipts, t.username, id) {
          ReceiptsPersist(s.receipts, sent, t.username, id);
        } else {
          assert t in push;
          var j :| 0 <= j < |push| && push[j] == t;
          assert r.receipts[|s.receipts| + j] == sent[j];
        }
      }
    }
    assert forall t :: t in targets ==> (t.username, id) in r.views;
  }
}

=== FILE: lifecycle.dfy ===
/** Shift histories: any interleaving of worker calls, whole cron ticks and
    single iterations of the sweep's release loop is a sequence of atomic
    steps. Properties of single calls become invariants
    of every history. */
module Lifecycle {
  import opened Common
  import opened Store
  import opened Shifts
  import opened Cron

  datatype Step =
    | LockStep(id: ShiftId, user: UserName, now: Time)
    | AcceptStep(id: ShiftId, user: UserName)
    | RefuseStep(id: ShiftId, user: UserName)
    | CompleteStep(id: ShiftId, user: UserName)
    | TickStep(now: Time, env: TickEnv)
    | ReleaseStep(id: ShiftId, now: Time)

  /** The state after one step; reply codes are dropped. */
  function Apply(s: State, step: Step): State {
    match step
    case LockStep(id, user, now) => Lock(s, id, user, now).1
    case AcceptStep(id, user) => Accept(s, id, user).1
    case RefuseStep(id, user) => Refuse(s, id, user).1
    case CompleteStep(id, user) => Complete(s, id, user).1
    case TickStep(now, env) => Tick(s, now, env).state
    case ReleaseStep(id, now) => if id in s.shifts then ReleaseOne(s, id, now) else s
  }

  function Run(s: State, steps: seq<Step>): State
    decreases |steps|
  {
    if |steps| == 0 then s else Run(Apply(s, steps[0]), steps[1..])
  }

  /** The status moves the system allows: 1 to 3, 3 to 2, 3 to 1 and 2 to 5. */
  predicate AllowedTransition(before: int, after: int) {
    || before == after
    || (before == FREE && after == LOCKED)
    || (before == LOCKED && after == ASSIGNED)
    || (before == LOCKED && after == FREE)
    || (before == ASSIGNED && after == DONE)
  }

  /** A controller call made by a worker. */
  predicate IsCall(step: Step) {
    step.LockStep? || step.AcceptStep? || step.RefuseStep? || step.CompleteStep?
  }

  /** Whether a worker step acts on shift `id` for `user`. */
  predicate ActsOn(step: Step, id: ShiftId, user: UserName) {
    IsCall(step) && step.id == id && step.user == user
  }

  /** Every step keeps the set of shifts and moves each status along an
      allowed transition only. */
  lemma StepTransitions(s: State, step: Step)
    ensures Apply(s, step).shifts.Keys == s.shifts.Keys
    ensures forall id :: id in s.shifts ==> AllowedTransition(s.shifts[id].status, Apply(s, step).shifts[id].status)
  {
  }

  /** Every step keeps every shift well formed. */
  lemma StepPreservesInvariant(s: State, step: Step)
    requires Invariant(s)
    ensures Invariant(Apply(s, step))
  {
  }

  /** A held shift never passes straight from one worker to another: the
      holder can only change by way of a free shift. */
  lemma NoDirectHandover(s: State, step: Step, id: ShiftId)
    requires Invariant(s) && id in s.shifts
    requires s.shifts[id].userAssigned.Some? && Apply(s, step).shifts[id].userAssigned.Some?
    ensures Apply(s, step).shifts[id].userAssigned == s.shifts[id].userAssigned
  {
  }

  /** Only the holder's own calls change a locked or assigned shift; the
      other workers' calls leave it exactly as it is. */
  lemma OthersCannotTouchHeldShift(s: State, step: Step, id: ShiftId, holder: UserName)
    requires id in s.shifts
    requires HeldBy(s.shifts[id], LOCKED, holder) || HeldBy(s.shifts[id], ASSIGNED, holder)
    requires IsCall(step) && step.user != holder
    ensures Apply(s, step).shifts[id] == s.shifts[id]
  {
  }

  lemma {:induction false} RunPreservesInvariant(s: State, steps: seq<Step>)
    requires Invariant(s)
    ensures Invariant(Run(s, steps))
    decreases |steps|
  {
    if |steps| > 0 {
      StepPreservesInvariant(s, steps[0]);
      RunPreservesInvariant(Apply(s, steps[0]), steps[1..]);
    }
  }

  /** Status 5 is terminal: a done shift is never changed again, whatever
      happens afterwards. */
  lemma {:induction false} DoneIsFinal(s: State, steps: seq<Step>, id: ShiftId)
    requires id in s.shifts && s.shifts[id].status == DONE
    ensures id in Run(s, steps).shifts && Run(s, steps).shifts[id] == s.shifts[id]
    decreases |steps|
  {
    if |steps| > 0 {
      var next := Apply(s, steps[0]);
      assert next.shifts[id] == s.shifts[id];
      DoneIsFinal(next, steps[1..], id);
    }
  }

  /** A refusal is permanent unless the worker acts on the shift again: other
      workers' calls and every tick, dispatch included, leave it in place. */
  lemma {:induction false} RefusalPersists(s: State, steps: seq<Step>, id: ShiftId, user: UserName)
    requires (user, id) in s.views && s.views[(user, id)].status == REFUSED
    requires forall i :: 0 <= i < |steps| ==> !ActsOn(steps[i], id, user)
    ensures (user, id) in Run(s, steps).views && Run(s, steps).views[(user, id)].status == REFUSED
    decreases |steps|
  {
    if |steps| > 0 {
      var next := Apply(s, steps[0]);
      assert !ActsOn(steps[0], id, user);
      assert (user, id) in next.views && next.views[(user, id)] == s.views[(user, id)];
      assert forall i :: 0 <= i < |steps[1..]| ==> steps[1..][i] == steps[i + 1];
      RefusalPersists(next, steps[1..], id, user);
    }
  }

  // ---------------------------------------------------------------------
  // The sweep racing an acceptance
  // ---------------------------------------------------------------------

  /** The sweep's query selects an expired lock; its holder accepts before
      the loop reaches the row. The loop's write as performed moves the
      shift from assigned back to free, dropping the holder while the
      holder's view row still says accepted. The guarded release leaves the
      accepted shift alone. */
  lemma StaleReleaseRevertsAcceptance()
    ensures
      var now := 2 * LOCK_TTL_MS;
      var sh := Shift(1, None, 3 * LOCK_TTL_MS, Some([45.0, 9.0]), LOCKED, Some("A"), Some(0));
      var s := State(map[7 := sh], map[("A", 7) := ViewRow(VIEWING, 1, 0, 0)], []);
      var accepted := Accept(s, 7, "A");
      var stale := StaleReleaseOne(accepted.1, 7);
      && ExpiredIn(s, now, [7]) == [7]
      && accepted.0 == Ok && accepted.1.shifts[7].status == ASSIGNED
      && stale.shifts[7].status == FREE && stale.shifts[7].userAssigned.None?
      && !AllowedTransition(accepted.1.shifts[7].status, stale.shifts[7].status)
      && stale.views[("A", 7)].status == ACCEPTED
      && ReleaseOne(accepted.1, 7, now) == accepted.1
  {
  }

  /** With the guarded release, an accepted shift survives every later
      iteration of the sweep's loop, whenever the sweep's query ran. */
  lemma AcceptedShiftSurvivesRelease(s: State, id: ShiftId, user: UserName, now: Time)
    requires Accept(s, id, user).0 == Ok
    ensures Apply(Accept(s, id, user).1, ReleaseStep(id, now)) == Accept(s, id, user).1
  {
  }
}

=== FILE: shifts.dfy ===
/** The worker-facing shift controller: listing, and the four transitions
    lock, accept, refuse and complete. Each controller call re-reads the shift
    row under a row lock inside one transaction, so per shift the calls are
    atomic and totally ordered; each is modelled as one pure step from the
    store before the call to the store after it, plus the reply code. */
module Shifts {
  import opened Common
  import opened Store

  /** HTTP replies of the controller: 200, 404, 409 and 400. */
  datatype Code = Ok | NotFound | Conflict | Rejected

  /** Everything outside the shift `id` and the caller's own view row of it is
      left as it was, and no row is inserted or deleted. */
  predicate Frame(s: State, r: State, id: ShiftId, user: UserName) {
    && r.receipts == s.receipts
    && r.shifts.Keys == s.shifts.Keys
    && r.views.Keys == s.views.Keys
    && (forall k :: k in s.shifts && k != id ==> r.shifts[k] == s.shifts[k])
    && (forall v :: v in s.views && v != (user, id) ==> r.views[v] == s.views[v])
  }

  /** The caller's view row, if any, has been given `status`; nothing else in it changed. */
  predicate ViewSetTo(s: State, r: State, id: ShiftId, user: UserName, status: int)
    requires r.views.Keys == s.views.Keys
  {
    (user, id) in s.views ==> r.views[(user, id)] == s.views[(user, id)].(status := status)
  }

  /** `lockShift`: the first worker to lock a free shift holds it for ten
      minutes; a repeated lock by the holder is accepted without any write;
      every other case is a conflict. */
  function Lock(s: State, id: ShiftId, user: UserName, now: Time): (r: (Code, State))
    ensures id !in s.shifts ==> r == (NotFound, s)
    ensures Frame(s, r.1, id, user)
    ensures id in s.shifts && s.shifts[id].status == FREE ==>
      && r.0 == Ok
      && r.1.shifts[id] == s.shifts[id].(status := LOCKED, userAssigned := Some(user), blockedTime := Some(now))
      && ViewSetTo(s, r.1, id, user, VIEWING)
    ensures id in s.shifts && s.shifts[id].status != FREE ==>
      r.1 == s && (r.0 == Ok <==> HeldBy(s.shifts[id], LOCKED, user)) && (r.0 != Ok ==> r.0 == Conflict)
  {
    if id !in s.shifts then (NotFound, s)
    else
      var sh := s.shifts[id];
      if sh.status != FREE then
        if HeldBy(sh, LOCKED, user) then (Ok, s) else (Conflict, s)
      else
        var locked := sh.(status := LOCKED, userAssigned := Some(user), blockedTime := Some(now));
        (Ok, s.(shifts := s.shifts[id := locked], views := SetViewStatus(s.views, user, id, VIEWING)))
  }

  /** `acceptShift`: only the holder of a locked shift may accept it, however
      old the lock is; the holder and the lock time are kept. */
  function Accept(s: State, id: ShiftId, user: UserName): (r: (Code, State))
    ensures id !in s.shifts ==> r == (NotFound, s)
    ensures Frame(s, r.1, id, user)
    ensures id in s.shifts ==> (r.0 == Ok <==> HeldBy(s.shifts[id], LOCKED, user))
    ensures id in s.shifts && r.0 != Ok ==> r == (Rejected, s)
    ensures r.0 == Ok ==>
      && r.1.shifts[id] == s.shifts[id].(status := ASSIGNED)
      && ViewSetTo(s, r.1, id, user, ACCEPTED)
  {
    if id !in s.shifts then (NotFound, s)
    else
      var sh := s.shifts[id];
      if !HeldBy(sh, LOCKED, user) then (Rejected, s)
      else (Ok, s.(shifts := s.shifts[id := sh.(status := ASSIGNED)], views := SetViewStatus(s.views, user, id, ACCEPTED)))
  }

  /** `refuseShift`: never fails on an existing shift. A lock held by the
      caller is released; in every case the caller's view row becomes refused,
      even when the shift stays assigned to the caller. */
  function Refuse(s: State, id: ShiftId, user: UserName): (r: (Code, State))
    ensures id !in s.shifts ==> r == (NotFound, s)
    ensures id in s.shifts ==> r.0 == Ok
    ensures Frame(s, r.1, id, user)
    ensures id in s.shifts && HeldBy(s.shifts[id], LOCKED, user) ==>
      r.1.shifts[id] == s.shifts[id].(status := FREE, userAssigned := None, blockedTime := None)
    ensures id in s.shifts && !HeldBy(s.shifts[id], LOCKED, user) ==> r.1.shifts[id] == s.shifts[id]
    ensures id in s.shifts ==> ViewSetTo(s, r.1, id, user, REFUSED)
  {
    if id !in s.shifts then (NotFound, s)
    else
      var sh := s.shifts[id];
      var shifts := if HeldBy(sh, LOCKED, user)
        then s.shifts[id := sh.(status := FREE, userAssigned := None, blockedTime := None)]
        else s.shifts;
      (Ok, s.(shifts := shifts, views := SetViewStatus(s.views, user, id, REFUSED)))
  }

  /** `completeShift`: only the worker the shift is assigned to may mark it
      done; holder and lock time are kept. */
  function Complete(s: State, id: ShiftId, user: UserName): (r: (Code, State))
    ensures id !in s.shifts ==> r == (NotFound, s)
    ensures Frame(s, r.1, id, user)
    ensures id in s.shifts ==> (r.0 == Ok <==> HeldBy(s.shifts[id], ASSIGNED, user))
    ensures id in s.shifts && r.0 != Ok ==> r == (Rejected, s)
    ensures r.0 == Ok ==>
      && r.1.shifts[id] == s.shifts[id].(status := DONE)
      && ViewSetTo(s, r.1, id, user, COMPLETED)
  {
    if id !in s.shifts then (NotFound, s)
    else
      var sh := s.shifts[id];
      if !HeldBy(sh, ASSIGNED, user) then (Rejected, s)
      else (Ok, s.(shifts := s.shifts[id := sh.(status := DONE)], views := SetViewStatus(s.views, user, id, COMPLETED)))
  }

  // ---------------------------------------------------------------------
  // Listing (getShifts)
  // ---------------------------------------------------------------------

  /** The "available" list: the caller has a view row for the shift that is
      not refused, and the shift is either free and not yet past, or locked by
      the caller. */
  predicate Available(s: State, user: UserName, now: Time, id: ShiftId)
    requires id in s.shifts
  {
    var sh := s.shifts[id];
    && (user, id) in s.views
    && s.views[(user, id)].status != REFUSED
    && ((sh.status == FREE && sh.dateTime >= now) || HeldBy(sh, LOCKED, user))
  }

  /** The "my shifts" list: assigned to the caller and not yet past. */
  predicate Mine(sh: Shift, user: UserName, now: Time) {
    HeldBy(sh, ASSIGNED, user) && sh.dateTime >= now
  }

  /** Every id names a shift, and dates never decrease along the list. */
  predicate SortedByDate(shifts: map<ShiftId, Shift>, xs: seq<ShiftId>) {
    && (forall i :: 0 <= i < |xs| ==> xs[i] in shifts)
    && (forall i, j :: 0 <= i < j < |xs| ==> shifts[xs[i]].dateTime <= shifts[xs[j]].dateTime)
  }

  /** Inserts `x` before the first element with a later or equal date. */
  function InsertByDate(shifts: map<ShiftId, Shift>, xs: seq<ShiftId>, x: ShiftId): (r: seq<ShiftId>)
    requires x in shifts && SortedByDate(shifts, xs)
    requires x !in xs && Distinct(xs)
    ensures forall y :: y in r <==> y in xs || y == x
    ensures |r| == |xs| + 1
    ensures SortedByDate(shifts, r) && Distinct(r)
  {
    if |xs| == 0 then [x]
    else if shifts[x].dateTime <= shifts[xs[0]].dateTime then [x] + xs
    else
      var rest := InsertByDate(shifts, xs[1..], x);
      assert forall y :: y in xs[1..] ==> y in xs;
      assert xs[0] !in xs[1..];
      assert xs[0] !in rest;
      assert forall k :: 0 <= k < |rest| ==> shifts[xs[0]].dateTime <= shifts[rest[k]].dateTime by {
        forall k | 0 <= k < |rest|
          ensures shifts[xs[0]].dateTime <= shifts[rest[k]].dateTime
        {
          var y := rest[k];
          assert y in rest;
          if y != x {
            var j :| 0 <= j < |xs[1..]| && xs[1..][j] == y;
            assert xs[j + 1] == y;
          }
        }
      }
      [xs[0]] + rest
  }

  /** `ORDER BY date_time ASC` over the rows a `WHERE` clause selected: each
      selected id exactly once, dates ascending (ties in any order). */
  method SortByDate(shifts: map<ShiftId, Shift>, keep: set<ShiftId>) returns (xs: seq<ShiftId>)
    requires keep <= shifts.Keys
    ensures forall id :: id in xs <==> id in keep
    ensures Distinct(xs) && SortedByDate(shifts, xs)
  {
    xs := [];
    var rest := keep;
    while rest != {}
      invariant rest <= keep
      invariant forall id :: id in xs <==> id in keep && id !in rest
      invariant Distinct(xs) && SortedByDate(shifts, xs)
      decreases rest
    {
      assert exists y :: y in rest by {
        if forall y :: y !in rest {
          assert false;
        }
      }
      var x :| x in rest;
      xs := InsertByDate(shifts, xs, x);
      rest := rest - {x};
    }
  }

  /** `getShifts`: the two lists the mobile home screen shows. */
  method ListShifts(s: State, user: UserName, now: Time) returns (available: seq<ShiftId>, mine: seq<ShiftId>)
    ensures forall id :: id in available <==> id in s.shifts && Available(s, user, now, id)
    ensures forall id :: id in mine <==> id in s.shifts && Mine(s.shifts[id], user, now)
    ensures Distinct(available) && SortedByDate(s.shifts, available)
    ensures Distinct(mine) && SortedByDate(s.shifts, mine)
    ensures forall id :: id in available ==> id !in mine
  {
    available := SortByDate(s.shifts, set id | id in s.shifts && Available(s, user, now, id));
    mine := SortByDate(s.shifts, set id | id in s.shifts && Mine(s.shifts[id], user, now));
  }

  // ---------------------------------------------------------------------
  // Properties relating several calls
  // ---------------------------------------------------------------------

  /** Two workers race for a free shift: whoever is served first holds it,
      the other gets a conflict and changes nothing. */
  lemma FirstClaimWins(s: State, id: ShiftId, a: UserName, b: UserName, t1: Time, t2: Time)
    requires id in s.shifts && s.shifts[id].status == FREE && a != b
    ensures var first := Lock(s, id, a, t1);
      && first.0 == Ok
      && HeldBy(first.1.shifts[id], LOCKED, a)
      && Lock(first.1, id, b, t2) == (Conflict, first.1)
  {
  }

  /** Locking again as the holder succeeds and writes nothing, so the lock
      time is not refreshed. */
  lemma RelockKeepsLockTime(s: State, id: ShiftId, user: UserName, t1: Time, t2: Time)
    requires id in s.shifts && s.shifts[id].status == FREE
    ensures var first := Lock(s, id, user, t1);
      && Lock(first.1, id, user, t2) == (Ok, first.1)
      && first.1.shifts[id].blockedTime == Some(t1)
  {
  }
}

=== FILE: store.dfy ===
/** The three tables the core reads and writes: `service_requests`,
    `user_request_status` (one row per worker and shift) and `notifications`. */
module Store {
  import opened Common

  // status_request values of a shift
  const FREE: int := 1
  const ASSIGNED: int := 2
  const LOCKED: int := 3
  const DONE: int := 5

  // status values of a worker's view row
  const PROPOSED: int := 1
  const ACCEPTED: int := 2
  const VIEWING: int := 3
  const REFUSED: int := 4
  const COMPLETED: int := 5

  /** The joined `services` row: its description and its type tag. */
  datatype ServiceInfo = ServiceInfo(description: string, serviceType: int)

  /** A `service_requests` row, reduced to the columns the core reads. The
      location is the `positionRequest` point, given by its coordinate array;
      the table has no separate latitude or longitude column. */
  datatype Shift = Shift(
    service: int,
    info: Option<ServiceInfo>,
    dateTime: Time,
    coordinates: Option<seq<real>>,
    status: int,
    userAssigned: Option<UserName>,
    blockedTime: Option<Time>)

  /** A `user_request_status` row, keyed by (user, request). */
  datatype ViewRow = ViewRow(status: int, sentNotification: int, sentMail: int, sentDate: Time)

  /** A `notifications` row written when a push was handed to the transport. */
  datatype Receipt = Receipt(user: UserName, requestId: ShiftId, title: string, message: string, sent: int, date: Time)

  type ViewKey = (UserName, ShiftId)

  datatype State = State(
    shifts: map<ShiftId, Shift>,
    views: map<ViewKey, ViewRow>,
    receipts: seq<Receipt>)

  /** The assignment fields agree with the status: a free shift has neither a
      holder nor a lock time; a locked, assigned or done shift has both. */
  predicate WellFormed(sh: Shift) {
    && sh.status in {FREE, LOCKED, ASSIGNED, DONE}
    && (sh.status == FREE ==> sh.userAssigned.None? && sh.blockedTime.None?)
    && (sh.status != FREE ==> sh.userAssigned.Some? && sh.blockedTime.Some?)
  }

  predicate Invariant(s: State) {
    forall id :: id in s.shifts ==> WellFormed(s.shifts[id])
  }

  /** `sh` has status `status` and `user` is its holder. */
  predicate HeldBy(sh: Shift, status: int, user: UserName) {
    sh.status == status && sh.userAssigned == Some(user)
  }

  /** `UserRequestStatus.update({status}, {where: {request: id, user}})`:
      rewrites the status of the existing row and never inserts one. */
  function SetViewStatus(views: map<ViewKey, ViewRow>, user: UserName, id: ShiftId, status: int): (r: map<ViewKey, ViewRow>)
    ensures r.Keys == views.Keys
    ensures (user, id) in views ==> r[(user, id)] == views[(user, id)].(status := status)
    ensures forall k :: k in views && k != (user, id) ==> r[k] == views[k]
  {
    if (user, id) in views then views[(user, id) := views[(user, id)].(status := status)] else views
  }

  /** The user has a Notification row for this request. */
  predicate HasReceipt(receipts: seq<Receipt>, user: UserName, id: ShiftId) {
    exists i :: 0 <= i < |receipts| && receipts[i].user == user && receipts[i].requestId == id
  }
}

=== FILE: targeting.dfy ===
/** Which workers are told about an open shift: the day-and-band availability
    token, the shift's coordinates, and the candidate query of
    `findTargetsForRequest`. The great-circle distance test is the oracle
    `near`; the calendar day and hour of the shift are inputs. */
module Targeting {
  import opened Common
  import opened Store

  /** `Date.getDay()`: 0 is Sunday. */
  type Weekday = d: int | 0 <= d <= 6

  /** The shift's date-time in the server's time zone. */
  datatype LocalTime = LocalTime(weekday: Weekday, hour: int)

  /** The object `findTargetsForRequest` receives: the fields it reads. Any
      caller may pass `latitude`/`longitude`; a `service_requests` row
      converted with `toJSON` carries neither (see `OfShift`). */
  datatype Request = Request(
    service: int,
    info: Option<ServiceInfo>,
    dateTime: Time,
    coordinates: Option<seq<real>>,
    latitude: Option<real>,
    longitude: Option<real>)

  /** `req.toJSON()` of a shift row: the table has no latitude or longitude. */
  function OfShift(sh: Shift): Request {
    Request(sh.service, sh.info, sh.dateTime, sh.coordinates, None, None)
  }

  /** `DAY_MAP`: Sunday D, Monday M, Tuesday T, Wednesday W, Thursday H,
      Friday F, Saturday S. */
  function DayLetter(d: Weekday): char {
    match d
    case 0 => 'D'
    case 1 => 'M'
    case 2 => 'T'
    case 3 => 'W'
    case 4 => 'H'
    case 5 => 'F'
    case 6 => 'S'
  }

  /** Inverse of `DayLetter`. */
  function WeekdayOf(c: char): Option<Weekday> {
    match c
    case 'D' => Some(0)
    case 'M' => Some(1)
    case 'T' => Some(2)
    case 'W' => Some(3)
    case 'H' => Some(4)
    case 'F' => Some(5)
    case 'S' => Some(6)
    case _ => None
  }

  /** `getRangeCode`: the time band of an hour. Hour 6 falls in the night
      band "22", like every hour outside 7..21. */
  function RangeCode(hour: int): (r: string)
    ensures r == "6" || r == "14" || r == "22"
    ensures r == "6" <==> 7 <= hour <= 13
    ensures r == "14" <==> 14 <= hour <= 21
  {
    if hour > 6 && hour < 14 then "6"
    else if hour >= 14 && hour < 22 then "14"
    else "22"
  }

  /** The availability token looked for in a worker's `days` string. */
  function Token(t: LocalTime): (r: string)
    ensures |r| == 2 || |r| == 3
    ensures r[0] == DayLetter(t.weekday) && r[1..] == RangeCode(t.hour)
  {
    [DayLetter(t.weekday)] + RangeCode(t.hour)
  }

  /** The day letter decodes back to its weekday, so the seven letters differ. */
  lemma DayLetterRoundTrip(d: Weekday)
    ensures WeekdayOf(DayLetter(d)) == Some(d)
  {
  }

  /** Two shift times yield the same token exactly when they fall on the same
      weekday and in the same band. */
  lemma TokenDeterminesDayAndBand(t1: LocalTime, t2: LocalTime)
    ensures Token(t1) == Token(t2) <==>
      t1.weekday == t2.weekday && RangeCode(t1.hour) == RangeCode(t2.hour)
  {
    if Token(t1) == Token(t2) {
      DayLetterRoundTrip(t1.weekday);
      DayLetterRoundTrip(t2.weekday);
      assert Token(t1)[1..] == Token(t2)[1..];
    }
  }

  // ---------------------------------------------------------------------
  // Coordinates
  // ---------------------------------------------------------------------

  /** `xs[i]`, which is `undefined` past the end of a JavaScript array. */
  function Nth(xs: seq<real>, i: nat): Option<real> {
    if i < |xs| then Some(xs[i]) else None
  }

  /** JavaScript truthiness of a coordinate: missing and 0 are false. */
  predicate NonZero(x: Option<real>) {
    x.Some? && x.value != 0.0
  }

  /** The (latitude, longitude) used for the query, or None when the shift
      cannot be placed and so matches nobody. The coordinate array of the
      point wins when present, even if its entries are missing or zero. */
  function Coordinates(req: Request): (r: Option<(real, real)>)
    ensures r.Some? ==> r.value.0 != 0.0 && r.value.1 != 0.0
    ensures req.coordinates.Some? ==>
      var c := req.coordinates.value;
      (r.Some? <==> |c| >= 2 && c[0] != 0.0 && c[1] != 0.0) && (r.Some? ==> r.value == (c[0], c[1]))
    ensures req.coordinates.None? ==>
      (r.Some? <==> NonZero(req.latitude) && NonZero(req.longitude))
      && (r.Some? ==> r.value == (req.latitude.value, req.longitude.value))
  {
    var (lat, lon) :=
      if req.coordinates.Some? then (Nth(req.coordinates.value, 0), Nth(req.coordinates.value, 1))
      else if NonZero(req.latitude) && NonZero(req.longitude) then (req.latitude, req.longitude)
      else (Some(0.0), Some(0.0));
    if NonZero(lat) && NonZero(lon) then Some((lat.value, lon.value)) else None
  }

  /** A request built from a shift row is placed by its point alone: the
      latitude/longitude fallback never applies on that path. */
  lemma ShiftPlacedByPointOnly(sh: Shift)
    ensures Coordinates(OfShift(sh)).Some? <==>
      sh.coordinates.Some? && |sh.coordinates.value| >= 2
      && sh.coordinates.value[0] != 0.0 && sh.coordinates.value[1] != 0.0
  {
  }

  // ---------------------------------------------------------------------
  // Candidate query
  // ---------------------------------------------------------------------

  /** A `user_services` row: the worker offers `service` when `selected` is '1'. */
  datatype UserService = UserService(service: int, selected: string)

  /** A `users` row joined with its `user_times_contactme.days` (None when the
      row or the column is missing) and its `user_services` rows. */
  datatype Worker = Worker(
    username: UserName,
    device: Option<string>,
    pharmacist: int,
    registerStatus: int,
    days: Option<string>,
    services: seq<UserService>)

  /** One row of the candidate query: `u.username, u.device`. */
  datatype Target = Target(username: UserName, device: Option<string>)

  /** The SQL distance test `u.distance >= 3959 * acos(...)` for a worker and
      the shift's (latitude, longitude). */
  type Near = (Worker, real, real) -> bool

  /** The service type exempt from the opt-in filter (company requests). */
  const COMPANY_TYPE: int := 8

  /** `request.Service ? request.Service.type : 0`. */
  function ServiceType(req: Request): (t: int)
    ensures req.info.Some? ==> t == req.info.value.serviceType
    ensures t == COMPANY_TYPE ==> req.info.Some?
  {
    if req.info.Some? then req.info.value.serviceType else 0
  }

  function TargetOf(w: Worker): Target {
    Target(w.username, w.device)
  }

  /** The filters every candidate passes: operator role (0 or 4), active
      registration (2), the token inside `days`, and within travel range. */
  predicate BaseEligible(w: Worker, token: string, lat: real, lon: real, near: Near) {
    && (w.pharmacist == 0 || w.pharmacist == 4)
    && w.registerStatus == 2
    && w.days.Some? && Contains(w.days.value, token)
    && near(w, lat, lon)
  }

  predicate OptedIn(us: UserService, service: int) {
    us.service == service && us.selected == "1"
  }

  /** A worker is a candidate for the shift. */
  predicate Eligible(w: Worker, req: Request, token: string, lat: real, lon: real, near: Near) {
    && BaseEligible(w, token, lat, lon, near)
    && (ServiceType(req) == COMPANY_TYPE || exists k :: 0 <= k < |w.services| && OptedIn(w.services[k], req.service))
  }

  /** Number of opted-in `user_services` rows; each is one joined result row. */
  function OptInCount(services: seq<UserService>, service: int): (n: nat)
    ensures n <= |services|
  {
    if |services| == 0 then 0
    else (if OptedIn(services[0], service) then 1 else 0) + OptInCount(services[1..], service)
  }

  /** Some row is counted exactly when the worker opted into the service. */
  lemma {:induction false} OptInCountPositive(services: seq<UserService>, service: int)
    ensures OptInCount(services, service) > 0 <==> exists k :: 0 <= k < |services| && OptedIn(services[k], service)
  {
    if |services| > 0 {
      OptInCountPositive(services[1..], service);
      if OptInCount(services[1..], service) > 0 {
        var k :| 0 <= k < |services[1..]| && OptedIn(services[1..][k], service);
        assert OptedIn(services[k + 1], service);
      }
      if exists k :: 0 <= k < |services| && OptedIn(services[k], service) {
        var k :| 0 <= k < |services| && OptedIn(services[k], service);
        if k > 0 {
          assert OptedIn(services[1..][k - 1], service);
        }
      }
    }
  }

  /** `n` result rows for the same worker. */
  function Copies(t: Target, n: nat): (r: seq<Target>)
    ensures |r| == n
    ensures forall x :: x in r <==> n > 0 && x == t
  {
    if n == 0 then [] else [t] + Copies(t, n - 1)
  }

  /** How many rows the joins produce for one worker: one when the type skips
      the `user_services` join, otherwise one per opted-in row. */
  function RowCount(w: Worker, req: Request, token: string, lat: real, lon: real, near: Near): (n: nat)
    ensures n > 0 <==> Eligible(w, req, token, lat, lon, near)
  {
    OptInCountPositive(w.services, req.service);
    if !BaseEligible(w, token, lat, lon, near) then 0
    else if ServiceType(req) == COMPANY_TYPE then 1
    else OptInCount(w.services, req.service)
  }

  /** The candidate rows over a directory of workers, in directory order. */
  function Rows(dir: seq<Worker>, req: Request, token: string, lat: real, lon: real, near: Near): (r: seq<Target>)
    ensures forall k :: 0 <= k < |r| ==>
      exists i :: 0 <= i < |dir| && r[k] == TargetOf(dir[i]) && Eligible(dir[i], req, token, lat, lon, near)
    decreases |dir|
  {
    if |dir| == 0 then []
    else
      var head := Copies(TargetOf(dir[0]), RowCount(dir[0], req, token, lat, lon, near));
      var rest := Rows(dir[1..], req, token, lat, lon, near);
      assert forall i :: 0 <= i < |dir| - 1 ==> dir[1..][i] == dir[i + 1];
      assert forall k :: 0 <= k < |head| ==> head[k] in head;
      head + rest
  }

  /** A row is produced exactly for the eligible workers of the directory. */
  lemma {:induction false} RowsMembers(dir: seq<Worker>, req: Request, token: string, lat: real, lon: real, near: Near)
    ensures forall t :: t in Rows(dir, req, token, lat, lon, near) <==>
      exists i :: 0 <= i < |dir| && t == TargetOf(dir[i]) && Eligible(dir[i], req, token, lat, lon, near)
  {
    if |dir| > 0 {
      var rest := Rows(dir[1..], req, token, lat, lon, near);
      RowsMembers(dir[1..], req, token, lat, lon, near);
      forall t | t in rest
        ensures exists i :: 0 <= i < |dir| && t == TargetOf(dir[i]) && Eligible(dir[i], req, token, lat, lon, near)
      {
        var i :| 0 <= i < |dir[1..]| && t == TargetOf(dir[1..][i]) && Eligible(dir[1..][i], req, token, lat, lon, near);
        assert dir[1..][i] == dir[i + 1];
      }
      forall i | 1 <= i < |dir| && Eligible(dir[i], req, token, lat, lon, near)
        ensures TargetOf(dir[i]) in rest
      {
        assert dir[1..][i - 1] == dir[i];
      }
    }
  }

  /** `findTargetsForRequest`: no candidates without coordinates; otherwise
      exactly the eligible workers of the directory (a worker with several
      opted-in rows for the service appears once per row). */
  function FindTargets(req: Request, lt: LocalTime, dir: seq<Worker>, near: Near): (r: seq<Target>)
    ensures Coordinates(req).None? ==> r == []
    ensures Coordinates(req).Some? ==>
      var (lat, lon) := Coordinates(req).value;
      forall t :: t in r <==>
        exists i :: 0 <= i < |dir| && t == TargetOf(dir[i]) && Eligible(dir[i], req, Token(lt), lat, lon, near)
  {
    match Coordinates(req)
    case None => []
    case Some((lat, lon)) =>
      RowsMembers(dir, req, Token(lt), lat, lon, near);
      Rows(dir, req, Token(lt), lat, lon, near)
  }
}
